=== FILE: README.md ===
# Token ledger and debt log

A model of the token ledger program, the debt-log program and the client's
byte codecs of the `tokens` repository.

- **Ledger records.** The token program keeps one 80-byte record per holder. Its first 32 bytes are four big-endian `u64` counters: balance 0..8, frozen 8..16, borrowed 16..24 and debited 24..32.
- **Ledger opcodes.** Opcodes 1–4 update these records in place:
  - transfer;
  - airdrop;
  - freeze;
  - borrow, which has two signed credit checks and sends a log instruction built by `write_log`.
- **Debt log.** The log program keeps a 73-byte record per pair of keys: a direction byte, a big-endian magnitude and the two keys. Together, direction and magnitude encode one signed net amount.
- **Merge and book.** Opcode 1 of the log program nets a new event into that record. Opcode 2 sets up a 1280-byte book of 40 key slots.
- **Client.** The client builds the ledger's instruction payloads, reads the balance field, decodes log records and scans a book.

Files:

- `runtime.dfy`: the outcomes of a program invocation. These are a returned `ProgramError`, or a Rust panic, which aborts the transaction: an index out of bounds, a checked arithmetic overflow, or a second `borrow_mut` of an account that is already borrowed.
- `codec.dfy`: the shared byte codec.
  - Big-endian `u64` encoding, with round trips both ways.
  - The `get_value!`/`write_value!` field access as functions on `seq<u8>` and as methods on `array<u8>`.
  - `as i64`.
  - The byte-wise ordering of keys.
- `token_program.dfy`: `src/lib.rs`. Each of opcodes 1–4 is a method over the borrowed data buffers; opcode 0 is the function `ProvisionStep`, which yields the account-creation request. It is proved equal to a step function over the buffers' contents, and the ledger's properties are lemmas about the step functions.
- `log_contract.dfy`: `log_contract/src/lib.rs`, with the merge as a method over the record buffer. It also covers the signed-value invariant, including over any sequence of events.
- `client_logs.dfy`: `read_log` and `read_log_book` of `token-cli/src/logs.rs`. The book scan is a loop proved against a specification of the keys a book lists.
- `token_client.dfy`: the payloads and `get_balance` of `token-cli/src/lib.rs`, tied to the on-chain decoders.

Conventions:

- Rust's checked arithmetic is modelled explicitly. An overflowing `+`, `-`, `+=` or `-=` panics, giving the `Abort(ArithmeticOverflow)` outcome; `as` casts wrap (`Codec.AsI64`). The runtime then discards every write, so in the model every `Err` and `Abort` comes with the records as they were.
- The owner checks are boolean inputs.
- The calls into other programs are returned as requests (`Cpi`, `LogCpi`). Their effect is not modelled.
- The chain the client queries is a map from keys to accounts.

## Model

| member | source | states |
|---|---|---|
| Codec.ReadU64 | src/lib.rs:13-19 | `get_value!` on a buffer returns the big-endian value of its 8-byte range |
| Codec.WriteU64 | src/lib.rs:27-31 | `write_value!` leaves the buffer equal to the old contents with only that 8-byte range replaced by the big-endian value |
| Codec.CopyInto | log_contract/src/lib.rs:108-109 | `copy_from_slice` into a range of a buffer replaces exactly that range with the source bytes |
| Codec.FromBeToBe | src/lib.rs:27-31 | decoding the big-endian bytes of a `u64` gives the value back |
| Codec.ToBeFromBe | src/lib.rs:13-19 | re-encoding a decoded 8-byte slice gives the slice back |
| Codec.GetPutSame | src/lib.rs:13-31 | a field written with `write_value!` reads back with `get_value!` as the value written |
| Codec.PutKeepsOthers | src/lib.rs:27-31 | writing a field changes no byte outside its 8-byte range |
| Codec.GetPutOther | src/lib.rs:13-31 | writing a field leaves every non-overlapping field reading as before |
| Codec.PutGetSame | src/lib.rs:156-161 | writing back the value a field holds leaves the buffer unchanged |
| Codec.BeToNatLeading | src/lib.rs:111 | the leading byte of a big-endian string contributes at least its weight to the value |
| Codec.AsI64 | src/lib.rs:136 | `as i64` yields a value in the `i64` range, congruent to the input modulo 2^64, non-negative exactly when the input is at most 2^63 - 1 |
| Codec.LexLessConverse | log_contract/src/lib.rs:67 | `!(a < b)` on byte slices holds exactly when the slices are equal or `b < a` |
| TokenProgram.MoveBalance | src/lib.rs:171-178 | `transfer` refuses exactly when the payer's balance is below the amount; otherwise the payer loses the amount and the sum of the two balances is kept, and the destination's `+=` panics exactly when it would pass 2^64 - 1 |
| TokenProgram.Transfer | src/lib.rs:75-95 | opcode 1 on the two record buffers leaves exactly the outcome and contents of `TransferStep`: owner check, payload and record length panics, the aliased-account borrow panic, then the balance move |
| TokenProgram.TransferRefusedIff | src/lib.rs:90-92 | a well-formed transfer fails with `InvalidAccountData` exactly when the payer's balance is below `data[1..9]` |
| TokenProgram.TransferFailureWritesNothing | src/lib.rs:76-92 | a transfer that does not succeed writes neither record |
| TokenProgram.TransferMoves | src/lib.rs:93-94 | a successful transfer lowers the payer's balance and raises the destination's by `data[1..9]`, keeps their sum, and rewrites only bytes 0..8 of each record |
| TokenProgram.Airdrop | src/lib.rs:96-107 | opcode 2 on the record buffer leaves exactly the outcome and contents of `AirdropStep` |
| TokenProgram.AirdropCredits | src/lib.rs:98-106 | an airdrop succeeds exactly when the balance plus `data[1..9]` fits in a `u64`; it raises the balance by that amount and leaves every other byte unchanged |
| TokenProgram.Freeze | src/lib.rs:108-123 | opcode 3 on the record buffer leaves exactly the outcome and contents of `FreezeStep` |
| TokenProgram.FreezeMoves | src/lib.rs:111-122 | freeze fails with `AccountDataTooSmall` exactly when the balance is at most the amount, and then writes nothing; on success balance falls and frozen rises by the amount, their sum is kept, some balance remains, and only bytes 0..16 change |
| TokenProgram.FreezeAmountIncludesOpcode | src/lib.rs:111 | the freeze amount is read from `data[0..8]`, whose first byte is the opcode 3, so it is at least 3 * 2^56 and a freeze can only succeed on a balance above that |
| TokenProgram.Borrow | src/lib.rs:124-163 | opcode 4 on the two record buffers leaves exactly the outcome, contents and log instruction of `BorrowStep` |
| TokenProgram.CheckCredit | src/lib.rs:136-154 | the credit checks on the six counters as read give the outcome of `CreditCheck`: the `i64` subtraction's overflow panic, the `u64` sum and difference panics of line 142, the two non-positive-credit refusals, the amount refusal, then the panics of the three counter updates; `Ok` only when none of the three updates wraps |
| TokenProgram.CommitBorrow | src/lib.rs:152-161 | the three counter updates and six field writes leave the payer and destination records of a successful borrow |
| TokenProgram.BorrowFailureWritesNothing | src/lib.rs:136-151 | a borrow that does not succeed writes neither record and sends no log instruction |
| TokenProgram.BorrowCreditChecks | src/lib.rs:136-151 | when the `i64` subtraction of line 136 and the `u64` sum and difference of line 142 do not overflow, a borrow is refused with `InvalidAccountData` exactly when the amount is not strictly below both the payer's `balance - debited` and the destination's `balance + borrowed - debited` (either of which being at most 0 refuses it) |
| TokenProgram.BorrowAcceptedIff | src/lib.rs:136-154 | for a payer whose balance and debited counter are at most 2^63 - 1 and a destination whose balance plus borrowed counter is at most 2^63 - 1, a borrow succeeds exactly when the amount is below both credits and neither raised counter would wrap |
| TokenProgram.BorrowEffects | src/lib.rs:152-163 | a successful borrow lowers the payer's balance and raises its borrowed counter by the amount, raises the destination's debited counter by the amount, keeps every other counter and every byte after byte 32, and logs the amount for the ordered pair |
| TokenProgram.BorrowedPayFields | src/lib.rs:156-160 | the payer record after a borrow holds the new balance and borrowed counter and the old debited and frozen counters |
| TokenProgram.DebitedDestFields | src/lib.rs:157-161 | the destination record after a borrow holds the old balance, borrowed and frozen counters and the raised debited counter |
| TokenProgram.StoreByte | src/lib.rs:198 | an index store into a fixed-size buffer panics exactly when the index is past its end, and otherwise changes that byte only |
| TokenProgram.WriteLogAsWrittenPanics | src/lib.rs:186-198 | `write_log` as written panics on every input, because it stores the bump at index 10 of a 10-byte buffer |
| TokenProgram.BorrowAsWrittenNeverSucceeds | src/lib.rs:152-163 | with `write_log` as written, opcode 4 never succeeds: every borrow that passes its checks panics in `write_log`, so neither record changes and no log instruction is sent |
| TokenProgram.WriteLogLayout | src/lib.rs:186-198 | the log instruction names the byte-wise larger key first and carries both keys; its direction byte is 0 exactly when the source is the larger key (not below the destination) and 1 exactly when the source is below the destination; bytes 1..9 hold the amount and byte 9 the bump |
| TokenProgram.Process | src/lib.rs:41-170 | the payer's owner check, then the dispatch on `data[0]` to each opcode's step; unknown opcodes give `InvalidInstructionData`; nothing is written unless the outcome is `Ok` |
| LogContract.CheckOrder | log_contract/src/lib.rs:145-148 | the ordering guard accepts exactly when the first key equals or is byte-wise above the second, and otherwise gives `InvalidArgument` |
| LogContract.Merge | log_contract/src/lib.rs:90-109 | the in-place merge on the record buffer leaves exactly the outcome and contents of `MergeStep`, checking the arithmetic before the key copy's bounds |
| LogContract.MergeRules | log_contract/src/lib.rs:94-105 | same direction: the amount accumulates and the direction stays; opposite and larger event: the direction flips and the surplus remains; opposite and not larger: the amount shrinks, to 0 on equality, and the direction stays |
| LogContract.MergeAborts | log_contract/src/lib.rs:94-100 | on a record of at least 9 bytes, the merge panics with an arithmetic overflow exactly when an accumulation passes 2^64 - 1 or a flip meets a direction byte above 1; otherwise it panics with an index out of bounds exactly when the record is shorter than 73 bytes (the key copy); it succeeds exactly when neither holds; a panicking merge writes nothing |
| LogContract.MergeSignedValue | log_contract/src/lib.rs:93-106 | with direction and mode in {0, 1}, the direction stays in {0, 1} and the new signed value is the old one plus the signed event |
| LogContract.MergeWritesKeys | log_contract/src/lib.rs:106-109 | after any successful merge bytes 9..41 hold the first key and 41..73 the second, and bytes after 73 are unchanged |
| LogContract.StampKeysFields | log_contract/src/lib.rs:108-109 | writing the two keys changes neither the direction byte nor the amount |
| LogContract.MergeAllSums | log_contract/src/lib.rs:90-109 | over any sequence of events that all merge, the record's signed value grows by the algebraic sum of the events |
| LogContract.RecordBorrow | log_contract/src/lib.rs:56-110 | opcode 1 leaves exactly the outcome, `a2` contents and creation request of `RecordBorrowStep`: bump read, ordering guard, log-account size guard, then the merge into `a2`'s data, where a buffer shorter than 9 bytes panics at the value read and the arithmetic panics come before the key copy's index panic |
| LogContract.RecordBorrowOrderGuard | log_contract/src/lib.rs:65-70 | a first key byte-wise below the second is refused with `InvalidArgument` before the record is read or written |
| LogContract.RecordBorrowSizeGuard | log_contract/src/lib.rs:72-89 | once the keys are ordered, opcode 1 fails with `InvalidAccountData` and no write exactly when the log account's length is neither 0 nor 73 |
| LogContract.RecordBorrowNetsDirectionOne | log_contract/src/lib.rs:90-91 | because the mode is `data[0]`, which is 1 in this branch, an accepted opcode-1 call lowers the signed value by the amount; it requests the log account's creation exactly when that account is empty |
| LogContract.InitBook | log_contract/src/lib.rs:111-128 | book init fails with `InvalidArgument` exactly when the book has a foreign owner or a length other than 0 and 1280; it requests a 1280-byte book exactly for an empty account the program owns |
| LogContract.InitBookIdempotent | log_contract/src/lib.rs:116-122 | a second initialisation of a book the first one created succeeds and does nothing |
| LogContract.Process | log_contract/src/lib.rs:39-134 | dispatch on `data[0]`: the `create_account` ordering check for opcode 0, the opcode-1 and opcode-2 steps, `InvalidArgument` for other opcodes; no write unless the outcome is `Ok` |
| ClientLogs.ReadLogDecodes | token-cli/src/logs.rs:62-106 | a 73-byte log record owned by the log program decodes to the amount in bytes 1..9, with the first key as creditor for direction 0, the second for direction 1, and an error for any other direction |
| ClientLogs.ReadLogRejectsLength | token-cli/src/logs.rs:70-74 | a record whose length is not 73 is refused |
| ClientLogs.ReadLogAfterMerge | token-cli/src/logs.rs:75-99 | after a merge, the client reads the magnitude of the signed value, with the first key as creditor when it is positive and the second when it is negative |
| ClientLogs.UsedSlotsFirstZero | token-cli/src/logs.rs:45-54 | the scan passes only non-zero slots, in index order, and stops at the first all-zero slot |
| ClientLogs.BookKeysScan | token-cli/src/logs.rs:45-56 | the keys a book lists number at most 40; key `i` is slot `i` and is not all-zero; the slot after the last listed key is all-zero |
| ClientLogs.ReadLogsPrefixError | token-cli/src/logs.rs:57 | the first failing `read_log` is the book read's error |
| ClientLogs.ReadLogsStep | token-cli/src/logs.rs:57 | reading one more key appends its record, or fails with its error |
| ClientLogs.ReadLogBook | token-cli/src/logs.rs:30-60 | the slot loop returns what the book's owner and length checks and the records of its listed keys give; a book whose length is not 1280 is refused; at most 40 records are returned |
| TokenClient.GetBalance | token-cli/src/lib.rs:53-58 | `get_balance` yields a value exactly when the record has at least 8 bytes |
| TokenClient.GetBalanceReadsBalance | token-cli/src/lib.rs:55-58 | the value `get_balance` reads is the ledger's balance field |
| TokenClient.PayloadsDecode | token-cli/src/lib.rs:16-18 | the airdrop payload (and the transfer payload of lines 77-78) starts with its opcode, and the ledger's decode of bytes 1..9 recovers the amount |
| TokenClient.InitAccountProvisions | token-cli/src/lib.rs:34-39 | the `init_account` payload `[0, bump]` dispatches to opcode 0, which provisions the record with that bump |
| TokenClient.AirdropThenBalance | token-cli/src/lib.rs:11-28 | an airdrop payload succeeds exactly when the balance would not wrap, and then `get_balance` reads the old balance plus the amount; otherwise it aborts and writes nothing |
| TokenClient.TransferThenBalances | token-cli/src/lib.rs:60-80 | a transfer payload is refused exactly when the payer's balance is below the amount; on success the balances `get_balance` reads move by the amount |

## Left out

- Solana runtime: `invoke_signed`/`invoke`, `system_instruction::create_account` and `Rent::minimum_balance` are not modelled. Requests to create accounts or to call the log program are returned as values and their effects are not applied.
- Opcode 0 provisioning in both programs is modelled only up to the request it issues (`ProvisionStep`, and the `create_account` ordering check). Rent and the account creation are runtime calls.
- `find_program_address`: the bump is an input, since the derivation is a hash-based foreign call.
- Account lists: `next_account_info` failing on a short account list is not modelled. The accounts are inputs, and the owner checks are boolean inputs.
- Client I/O: the RPC client, the instruction and `AccountMeta` lists, and `token-cli/src/main.rs` are not part of this model. The RPC node's answer is a map from keys to accounts.
- `log_contract/src/error.rs` (a string error type) and the `msg!` logging are not modelled.
- `init_log_data_account` and `init_log_book_account` in `token-cli/src/logs.rs` build instructions with no behaviour of their own to model.
- No code appends keys to a book, so there is no append operation; the book is only initialised and scanned.
- TokenProgram.Borrow: `Borrow`, `BorrowStep` and `TokenProgram.Process` use the corrected `write_log` (bump at index 9, see Findings), so a borrow that passes its checks succeeds there; the code as written is `BorrowStepAsWritten`, under which opcode 4 never succeeds (`TokenProgram.BorrowAsWrittenNeverSucceeds`).
- Arithmetic is modelled as in a build with overflow checks, where an overflow panics. A release build with wrapping arithmetic is not modelled.
- The receiver address compiled into `src/lib.rs:33-34` is `11111111111111111111111111111111`, the system program's address, a placeholder. The model treats the receiver of `write_log`'s instruction as the log program.
- Cross-program composition is not claimed. The direction byte `write_log` puts in `data[0]` is the log program's opcode byte. A direction-0 log call would run the log program's opcode 0, and a direction-1 call always merges with mode 1 (`LogContract.RecordBorrowNetsDirectionOne`).
- The merge writes `a2`'s data, not the log account's, as the source does; which account that buffer belongs to is an input.
- A new book is created only for an empty account the log program already owns. A freshly generated account is owned by the system program, so in practice the create path needs such an account to exist already.
- The slot scan's `break` and `?` are modelled as values. Aliasing between the client's buffers is not relevant, because they are values.

## Findings

| source | as written | input that shows it | evidently intended | confidence | as-written member | corrected member |
|---|---|---|---|---|---|---|
| src/lib.rs:186-198 | `write_log` allocates `[0u8; 10]` and then assigns `data[10] = bump` | any call: with default lints, rustc's deny-by-default `unconditional_panic` lint rejects the constant index `data[10]` into a `[u8; 10]` at build time; with the lint allowed, every borrow that passes its checks panics there, so opcode 4 never succeeds | store the bump at index 9, where the log program reads it (`log_contract/src/lib.rs:57`) | high, not executed | TokenProgram.BorrowAsWrittenNeverSucceeds | TokenProgram.WriteLogLayout |

=== FILE: client_logs.dfy ===
/**
 * The client's readers of the debt log: `read_log` decodes a 73-byte log
 * record into creditor, debtor and amount; `read_log_book` scans the 40
 * key slots of a 1280-byte book up to the first all-zero slot and reads the
 * log record each key names. The chain the client queries is a parameter:
 * a map from keys to the accounts the RPC node would return.
 */
module ClientLogs {
  import opened Codec
  import LogContract

  const BOOK_SIZE: nat := 32 * 40
  const BOOK_SLOTS: nat := 40
  const LOG_DATA_SIZE: nat := 9 + 64

  /** The all-zero key that marks an unused book slot. */
  const ZERO_KEY: Key := [0,0,0,0,0,0,0,0,0,0,0,0,0,0,0,0,0,0,0,0,0,0,0,0,0,0,0,0,0,0,0,0]

  datatype LogData = LogData(creditor: Key, debtor: Key, amount: u64)

  /** What `get_account` returns, reduced to what the readers look at:
      whether the log program owns the account, and its data. */
  datatype Account = Account(ownedByLogProgram: bool, data: seq<u8>)

  datatype ClientError =
    | AccountNotFound       // the RPC query fails
    | NotBookAccount        // "account is not book account"
    | BookVersionMismatch   // "book account version not match"
    | LogVersionMismatch    // "log account version not match"
    | InvalidDirection      // "account data is invalid error"

  datatype Result<T> = Ok(value: T) | Err(error: ClientError)

  /** `read_log`: fetch the account, check its owner and length, decode it. */
  function ReadLog(chain: map<Key, Account>, key: Key): Result<LogData>
  {
    if key !in chain then Err(AccountNotFound)
    else
      var account := chain[key];
      if !account.ownedByLogProgram then Err(NotBookAccount)
      else if |account.data| != LOG_DATA_SIZE then Err(LogVersionMismatch)
      else
        var a1: Key := account.data[9..41];
        var a2: Key := account.data[41..73];
        var amount := GetU64(account.data, 1);
        if account.data[0] == 0 then Ok(LogData(a1, a2, amount))
        else if account.data[0] == 1 then Ok(LogData(a2, a1, amount))
        else Err(InvalidDirection)
  }

  /** The layout of a log record: direction, big-endian amount, two keys. */
  function LogRecord(direction: u8, amount: u64, k1: Key, k2: Key): (r: seq<u8>)
    ensures |r| == LOG_DATA_SIZE
  {
    [direction] + ToBe(amount) + k1 + k2
  }

  /** `read_log` inverts the record layout: direction 0 names the first key
      as creditor, direction 1 the second, any other direction is an error;
      the amount is bytes 1..9. A record of another length is refused. */
  lemma ReadLogDecodes(chain: map<Key, Account>, key: Key, direction: u8, amount: u64, k1: Key, k2: Key)
    requires key in chain && chain[key] == Account(true, LogRecord(direction, amount, k1, k2))
    ensures direction == 0 ==> ReadLog(chain, key) == Ok(LogData(k1, k2, amount))
    ensures direction == 1 ==> ReadLog(chain, key) == Ok(LogData(k2, k1, amount))
    ensures direction > 1 ==> ReadLog(chain, key) == Err(InvalidDirection)
  {
    var r := LogRecord(direction, amount, k1, k2);
    assert r[1..9] == ToBe(amount);
    assert r[9..41] == k1;
    assert r[41..73] == k2;
    FromBeToBe(amount);
  }

  lemma ReadLogRejectsLength(chain: map<Key, Account>, key: Key)
    requires key in chain && chain[key].ownedByLogProgram && |chain[key].data| != LOG_DATA_SIZE
    ensures ReadLog(chain, key) == Err(LogVersionMismatch)
  {
  }

  /** What the client reads back after the log program merged an event into a
      record: the magnitude of the signed value, with the first key as
      creditor when it is positive and the second when it is negative. */
  lemma ReadLogAfterMerge(chain: map<Key, Account>, key: Key, rec: seq<u8>, mode: u8, amount: u64, k1: Key, k2: Key)
    requires |rec| == LOG_DATA_SIZE && rec[0] <= 1 && mode <= 1
    requires LogContract.MergeStep(rec, mode, amount, k1, k2).outcome.Ok?
    requires key in chain && chain[key] == Account(true, LogContract.MergeStep(rec, mode, amount, k1, k2).rec)
    ensures var s := LogContract.RecordSigned(LogContract.MergeStep(rec, mode, amount, k1, k2).rec);
      && ReadLog(chain, key).Ok?
      && ReadLog(chain, key).value.amount == (if s < 0 then -s else s)
      && (s > 0 ==> ReadLog(chain, key).value.creditor == k1 && ReadLog(chain, key).value.debtor == k2)
      && (s < 0 ==> ReadLog(chain, key).value.creditor == k2 && ReadLog(chain, key).value.debtor == k1)
  {
    LogContract.MergeSignedValue(rec, mode, amount, k1, k2);
    LogContract.MergeWritesKeys(rec, mode, amount, k1, k2);
  }

  // ---------------------------------------------------------------------
  // The book scan

  /** Slot `i` of a book: bytes `32 * i .. 32 * (i + 1)`. */
  function Slot(book: seq<u8>, i: nat): Key
    requires |book| == BOOK_SIZE && i < BOOK_SLOTS
  {
    book[32 * i..32 * i + 32]
  }

  /** The index of the first all-zero slot at or after `from`, or 40. */
  function UsedSlots(book: seq<u8>, from: nat): (n: nat)
    requires |book| == BOOK_SIZE && from <= BOOK_SLOTS
    ensures from <= n <= BOOK_SLOTS
    decreases BOOK_SLOTS - from
  {
    if from == BOOK_SLOTS || Slot(book, from) == ZERO_KEY then from else UsedSlots(book, from + 1)
  }

  /** The keys a book lists: its slots before the first all-zero one. */
  function BookKeys(book: seq<u8>): seq<Key>
    requires |book| == BOOK_SIZE
  {
    seq(UsedSlots(book, 0), i requires 0 <= i < UsedSlots(book, 0) => Slot(book, i))
  }

  /** The scan visits slots in index order and stops at the first all-zero
      slot, excluding it: it lists at most 40 keys, key `i` is slot `i`, none
      of them is zero, and the slot after the last one listed is zero. */
  lemma {:induction false} UsedSlotsFirstZero(book: seq<u8>, from: nat)
    requires |book| == BOOK_SIZE && from <= BOOK_SLOTS
    decreases BOOK_SLOTS - from
    ensures forall i | from <= i < UsedSlots(book, from) :: Slot(book, i) != ZERO_KEY
    ensures UsedSlots(book, from) < BOOK_SLOTS ==> Slot(book, UsedSlots(book, from)) == ZERO_KEY
  {
    if from < BOOK_SLOTS && Slot(book, from) != ZERO_KEY {
      UsedSlotsFirstZero(book, from + 1);
    }
  }

  lemma BookKeysScan(book: seq<u8>)
    requires |book| == BOOK_SIZE
    ensures var keys := BookKeys(book);
      && |keys| <= BOOK_SLOTS
      && (forall i | 0 <= i < |keys| :: keys[i] == Slot(book, i) && keys[i] != ZERO_KEY)
      && (|keys| < BOOK_SLOTS ==> Slot(book, |keys|) == ZERO_KEY)
  {
    UsedSlotsFirstZero(book, 0);
  }

  /** Reads the records `keys` name, in order; the first failure wins. */
  function ReadLogs(chain: map<Key, Account>, keys: seq<Key>): Result<seq<LogData>>
  {
    if keys == [] then Ok([])
    else
      match ReadLogs(chain, keys[..|keys| - 1])
      case Err(e) => Err(e)
      case Ok(logs) =>
        match ReadLog(chain, keys[|keys| - 1])
        case Err(e) => Err(e)
        case Ok(log) => Ok(logs + [log])
  }

  /** Once a prefix of the keys fails, reading all of them fails the same way. */
  lemma {:induction false} ReadLogsPrefixError(chain: map<Key, Account>, keys: seq<Key>, n: nat)
    requires n <= |keys| && ReadLogs(chain, keys[..n]).Err?
    ensures ReadLogs(chain, keys) == ReadLogs(chain, keys[..n])
    decreases |keys| - n
  {
    if n < |keys| {
      assert keys[..n + 1][..n] == keys[..n];
      ReadLogsPrefixError(chain, keys, n + 1);
    } else {
      assert keys[..n] == keys;
    }
  }

  /** What `read_log_book` returns for a book key: the book checks, then the
      records of the keys the book lists. */
  function ReadLogBookSpec(chain: map<Key, Account>, book: Key): Result<seq<LogData>>
  {
    if book !in chain then Err(AccountNotFound)
    else if !chain[book].ownedByLogProgram then Err(NotBookAccount)
    else if |chain[book].data| != BOOK_SIZE then Err(BookVersionMismatch)
    else ReadLogs(chain, BookKeys(chain[book].data))
  }

  /** Reading one more key extends the records read so far, or fails with
      that key's error. */
  lemma ReadLogsStep(chain: map<Key, Account>, keys: seq<Key>, i: nat, logs: seq<LogData>)
    requires i < |keys| && ReadLogs(chain, keys[..i]) == Ok(logs)
    ensures ReadLog(chain, keys[i]).Err? ==> ReadLogs(chain, keys[..i + 1]) == Err(ReadLog(chain, keys[i]).error)
    ensures ReadLog(chain, keys[i]).Ok? ==> ReadLogs(chain, keys[..i + 1]) == Ok(logs + [ReadLog(chain, keys[i]).value])
  {
    assert keys[..i + 1][..i] == keys[..i];
  }

  /** `read_log_book`: the loop over the 40 slots, stopping at the first
      all-zero slot and propagating the first `read_log` error. */
  method ReadLogBook(chain: map<Key, Account>, book: Key) returns (r: Result<seq<LogData>>)
    ensures r == ReadLogBookSpec(chain, book)
    ensures book in chain && chain[book].ownedByLogProgram && |chain[book].data| != BOOK_SIZE
            ==> r == Err(BookVersionMismatch)
    ensures r.Ok? ==> |r.value| <= BOOK_SLOTS
  {
    if book !in chain {
      return Err(AccountNotFound);
    }
    var account := chain[book];
    if !account.ownedByLogProgram {
      return Err(NotBookAccount);
    } else if |account.data| != BOOK_SIZE {
      return Err(BookVersionMismatch);
    }
    var data := account.data;
    ghost var keys := BookKeys(data);
    BookKeysScan(data);
    var result: seq<LogData> := [];
    var i := 0;
    while i < BOOK_SLOTS
      invariant 0 <= i <= |keys|
      invariant ReadLogs(chain, keys[..i]) == Ok(result)
      invariant |result| == i
    {
      var slot: Key := data[32 * i..32 * i + 32];
      assert slot == Slot(data, i);
      if slot == ZERO_KEY {
        break;
      }
      assert keys[i] == slot;
      ReadLogsStep(chain, keys, i, result);
      var read := ReadLog(chain, slot);
      if read.Err? {
        ReadLogsPrefixError(chain, keys, i + 1);
        return Err(read.error);
      }
      result := result + [read.value];
      i := i + 1;
    }
    assert keys[..i] == keys;
    r := Ok(result);
  }
}

=== FILE: codec.dfy ===
/**
 * Fixed-layout byte codec shared by both programs and the client:
 * big-endian `u64` fields (`u64::from_be_bytes` / `to_be_bytes`), the
 * `get_value!` / `write_value!` macros that read and overwrite an 8-byte
 * range of an account buffer, the `as i64` reinterpretation, and 32-byte
 * public keys with Rust's byte-wise slice ordering.
 */
module Codec {

  const U64_LIMIT: int := 0x1_0000_0000_0000_0000
  const I64_MIN: int := -0x8000_0000_0000_0000
  const I64_MAX: int := 0x7FFF_FFFF_FFFF_FFFF
  const KEY_SIZE: nat := 32

  type u8 = x: int | 0 <= x < 256
  type u64 = x: int | 0 <= x < 0x1_0000_0000_0000_0000

  /** A public key: 32 raw bytes. */
  type Key = s: seq<u8> | |s| == 32 witness seq(32, _ => 0)

  function Pow256(n: nat): (r: nat)
    ensures r > 0
  {
    if n == 0 then 1 else 256 * Pow256(n - 1)
  }

  lemma Pow256Eight()
    ensures Pow256(8) == U64_LIMIT
  {
  }

  /** The unsigned number a big-endian byte string denotes. */
  function BeToNat(s: seq<u8>): nat
  {
    if s == [] then 0 else BeToNat(s[..|s| - 1]) * 256 + s[|s| - 1]
  }

  /** The `n` low-order bytes of `v`, most significant first. */
  function NatToBe(v: nat, n: nat): (r: seq<u8>)
    ensures |r| == n
  {
    if n == 0 then [] else NatToBe(v / 256, n - 1) + [v % 256]
  }

  lemma {:induction false} BeToNatBound(s: seq<u8>)
    ensures BeToNat(s) < Pow256(|s|)
  {
    if s != [] {
      BeToNatBound(s[..|s| - 1]);
    }
  }

  /** Encoding a number that fits in `n` bytes and decoding it gives it back. */
  lemma {:induction false} BeToNatOfNatToBe(v: nat, n: nat)
    requires v < Pow256(n)
    ensures BeToNat(NatToBe(v, n)) == v
  {
    if n > 0 {
      var r := NatToBe(v, n);
      assert r[..n - 1] == NatToBe(v / 256, n - 1);
      BeToNatOfNatToBe(v / 256, n - 1);
    }
  }

  /** Decoding a byte string and re-encoding it at the same width gives it back. */
  lemma {:induction false} NatToBeOfBeToNat(s: seq<u8>)
    ensures NatToBe(BeToNat(s), |s|) == s
  {
    if s != [] {
      var init := s[..|s| - 1];
      NatToBeOfBeToNat(init);
      assert s == init + [s[|s| - 1]];
    }
  }

  /** The leading byte of a big-endian string weighs `256^(|s| - 1)`. */
  lemma {:induction false} BeToNatLeading(s: seq<u8>)
    requires |s| > 0
    ensures BeToNat(s) >= s[0] * Pow256(|s| - 1)
  {
    if |s| > 1 {
      var init := s[..|s| - 1];
      BeToNatLeading(init);
      assert init[0] == s[0];
      calc {
        BeToNat(s);
      >= BeToNat(init) * 256;
      >= s[0] * Pow256(|s| - 2) * 256;
      == s[0] * Pow256(|s| - 1);
      }
    }
  }

  /** `u64::to_be_bytes`. */
  function ToBe(v: u64): (r: seq<u8>)
    ensures |r| == 8
  {
    NatToBe(v, 8)
  }

  /** `u64::from_be_bytes` of an 8-byte slice. */
  function FromBe(s: seq<u8>): u64
    requires |s| == 8
  {
    BeToNatBound(s);
    Pow256Eight();
    BeToNat(s)
  }

  lemma FromBeToBe(v: u64)
    ensures FromBe(ToBe(v)) == v
  {
    Pow256Eight();
    BeToNatOfNatToBe(v, 8);
  }

  lemma ToBeFromBe(s: seq<u8>)
    requires |s| == 8
    ensures ToBe(FromBe(s)) == s
  {
    NatToBeOfBeToNat(s);
  }

  /** `get_value!(buf, start, start + 8)`. */
  function GetU64(buf: seq<u8>, start: nat): u64
    requires start + 8 <= |buf|
  {
    FromBe(buf[start..start + 8])
  }

  /** `write_value!(buf, v, start, start + 8)` on the buffer's contents. */
  function PutU64(buf: seq<u8>, start: nat, v: u64): (r: seq<u8>)
    requires start + 8 <= |buf|
    ensures |r| == |buf|
  {
    buf[..start] + ToBe(v) + buf[start + 8..]
  }

  /** A written field reads back as the value written. */
  lemma GetPutSame(buf: seq<u8>, start: nat, v: u64)
    requires start + 8 <= |buf|
    ensures GetU64(PutU64(buf, start, v), start) == v
  {
    assert PutU64(buf, start, v)[start..start + 8] == ToBe(v);
    FromBeToBe(v);
  }

  /** Writing a field changes no byte outside its 8-byte range. */
  lemma PutKeepsOthers(buf: seq<u8>, start: nat, v: u64)
    requires start + 8 <= |buf|
    ensures forall i | 0 <= i < |buf| && !(start <= i < start + 8) :: PutU64(buf, start, v)[i] == buf[i]
  {
  }

  /** Writing a field leaves every field it does not overlap reading as before. */
  lemma GetPutOther(buf: seq<u8>, start: nat, v: u64, other: nat)
    requires start + 8 <= |buf| && other + 8 <= |buf|
    requires other + 8 <= start || start + 8 <= other
    ensures GetU64(PutU64(buf, start, v), other) == GetU64(buf, other)
  {
    PutKeepsOthers(buf, start, v);
    assert PutU64(buf, start, v)[other..other + 8] == buf[other..other + 8];
  }

  /** Writing back the value a field already holds leaves the buffer as it was. */
  lemma PutGetSame(buf: seq<u8>, start: nat)
    requires start + 8 <= |buf|
    ensures PutU64(buf, start, GetU64(buf, start)) == buf
  {
    ToBeFromBe(buf[start..start + 8]);
    assert buf == buf[..start] + buf[start..start + 8] + buf[start + 8..];
  }

  /** `x as i64`: the same 64 bits read as two's complement. */
  function AsI64(x: u64): (r: int)
    ensures I64_MIN <= r <= I64_MAX
    ensures r % U64_LIMIT == x
    ensures r >= 0 <==> x <= I64_MAX
  {
    if x <= I64_MAX then x else x - U64_LIMIT
  }

  /** Rust's `<` on byte slices: lexicographic, a proper prefix is smaller. */
  predicate LexLess(a: seq<u8>, b: seq<u8>)
  {
    if |a| == 0 then |b| > 0
    else if |b| == 0 then false
    else if a[0] != b[0] then a[0] < b[0]
    else LexLess(a[1..], b[1..])
  }

  lemma {:induction false} LexLessIrreflexive(a: seq<u8>)
    ensures !LexLess(a, a)
  {
    if |a| > 0 {
      LexLessIrreflexive(a[1..]);
    }
  }

  lemma {:induction false} LexLessAsymmetric(a: seq<u8>, b: seq<u8>)
    requires LexLess(a, b)
    ensures !LexLess(b, a)
  {
    if |a| > 0 && |b| > 0 && a[0] == b[0] {
      LexLessAsymmetric(a[1..], b[1..]);
    }
  }

  lemma {:induction false} LexLessTotal(a: seq<u8>, b: seq<u8>)
    requires a != b
    ensures LexLess(a, b) || LexLess(b, a)
  {
    if |a| > 0 && |b| > 0 && a[0] == b[0] {
      assert a == [a[0]] + a[1..] && b == [b[0]] + b[1..];
      LexLessTotal(a[1..], b[1..]);
    }
  }

  /** `a >= b` on slices is `a == b || b < a`. */
  lemma LexLessConverse(a: seq<u8>, b: seq<u8>)
    ensures !LexLess(a, b) <==> a == b || LexLess(b, a)
  {
    if a == b {
      LexLessIrreflexive(a);
    } else if LexLess(a, b) {
      LexLessAsymmetric(a, b);
    } else {
      LexLessTotal(a, b);
    }
  }

  /** `buf[start..start + |src|].copy_from_slice(src)` on an account buffer. */
  method CopyInto(buf: array<u8>, start: nat, src: seq<u8>)
    requires start + |src| <= buf.Length
    modifies buf
    ensures buf[..] == old(buf[..])[..start] + src + old(buf[..])[start + |src|..]
  {
    var i := 0;
    while i < |src|
      invariant 0 <= i <= |src|
      invariant forall k | 0 <= k < buf.Length ::
        buf[k] == if start <= k < start + i then src[k - start] else old(buf[k])
    {
      buf[start + i] := src[i];
      i := i + 1;
    }
    assert buf[..] == old(buf[..])[..start] + src + old(buf[..])[start + |src|..];
  }

  /** `get_value!` on a borrowed account buffer. */
  method ReadU64(buf: array<u8>, start: nat) returns (v: u64)
    requires start + 8 <= buf.Length
    ensures v == GetU64(buf[..], start)
  {
    v := GetU64(buf[..], start);
  }

  /** `write_value!` on a borrowed account buffer. */
  method WriteU64(buf: array<u8>, start: nat, v: u64)
    requires start + 8 <= buf.Length
    modifies buf
    ensures buf[..] == PutU64(old(buf[..]), start, v)
  {
    CopyInto(buf, start, ToBe(v));
  }
}

=== FILE: log_contract.dfy ===
/**
 * The debt-log program `process_instruction`: a 73-byte record holding a
 * direction byte, a big-endian `u64` magnitude and two 32-byte keys, which
 * together encode one signed net amount between a pair of accounts; the
 * opcode-1 guards and the in-place merge of a new borrow event into it;
 * and the guard of the 1280-byte counterparty book's initialisation.
 */
module LogContract {
  import opened Runtime
  import opened Codec

  const LOG_DATA_SIZE: nat := 73
  const BOOK_SIZE: nat := 32 * 40

  // Record layout.
  const DIRECTION: nat := 0
  const AMOUNT: nat := 1
  const FIRST_KEY: nat := 9
  const SECOND_KEY: nat := 41

  const OP_CREATE_LOG: u8 := 0
  const OP_RECORD_BORROW: u8 := 1
  const OP_INIT_BOOK: u8 := 2

  /** A side effect the program asks the runtime to perform. */
  datatype LogCpi = CreateLogAccount(bump: u8) | CreateBook(space: nat)

  /** The ordering rule of `create_account` and of opcode 1: the first key
      must not be byte-wise smaller than the second. */
  function CheckOrder(a1: Key, a2: Key): (r: Outcome)
    ensures r == Ok || r == Err(InvalidArgument)
    ensures r == Ok <==> a1 == a2 || LexLess(a2, a1)
  {
    LexLessConverse(a1, a2);
    if LexLess(a1, a2) then Err(InvalidArgument) else Ok
  }

  /** The signed value a direction and a magnitude encode: `+amount` for
      direction 0 and `-amount` for direction 1. */
  function Signed(direction: u8, amount: u64): int
    requires direction <= 1
  {
    if direction == 0 then amount as int else -(amount as int)
  }

  function RecordSigned(rec: seq<u8>): int
    requires |rec| >= LOG_DATA_SIZE && rec[DIRECTION] <= 1
  {
    Signed(rec[DIRECTION], GetU64(rec, AMOUNT))
  }

  /** Bytes 9..41 become `k1` and bytes 41..73 become `k2`. */
  function StampKeys(rec: seq<u8>, k1: Key, k2: Key): (r: seq<u8>)
    requires |rec| >= LOG_DATA_SIZE
    ensures |r| == |rec|
  {
    rec[..FIRST_KEY] + k1 + k2 + rec[LOG_DATA_SIZE..]
  }

  datatype Update = Update(outcome: Outcome, rec: seq<u8>)

  /** Lines 93-109: read the stored value (bytes 1..9), net the event
      (`mode`, `amount`) against the stored direction and value, then write
      the value and both keys. The arithmetic panics come first; a buffer
      shorter than 73 bytes then panics at the key copy, which discards the
      writes before it. */
  function MergeStep(rec: seq<u8>, mode: u8, amount: u64, k1: Key, k2: Key): (r: Update)
    requires |rec| >= AMOUNT + 8
    ensures |r.rec| == |rec|
  {
    var dir := rec[DIRECTION];
    var value := GetU64(rec, AMOUNT);
    if dir == mode && value + amount >= U64_LIMIT then Update(Abort(ArithmeticOverflow), rec)
    else if dir != mode && value < amount && dir > 1 then Update(Abort(ArithmeticOverflow), rec)
    else if |rec| < LOG_DATA_SIZE then Update(Abort(IndexOutOfBounds), rec)
    else if dir == mode then Update(Ok, StampKeys(PutU64(rec, AMOUNT, value + amount), k1, k2))
    else if value < amount then
      Update(Ok, StampKeys(PutU64(rec[DIRECTION := 1 - dir], AMOUNT, amount - value), k1, k2))
    else Update(Ok, StampKeys(PutU64(rec, AMOUNT, value - amount), k1, k2))
  }

  /** The merge on `a2`'s data buffer (`line_raw`). */
  method Merge(line: array<u8>, mode: u8, amount: u64, k1: Key, k2: Key) returns (res: Outcome)
    requires line.Length >= AMOUNT + 8
    modifies line
    ensures Update(res, line[..]) == MergeStep(old(line[..]), mode, amount, k1, k2)
  {
    ghost var rec := line[..];
    var value := ReadU64(line, AMOUNT);
    if line[DIRECTION] == mode {
      if value + amount >= U64_LIMIT {
        return Abort(ArithmeticOverflow);
      }
      value := value + amount;
    } else if value < amount {
      if line[DIRECTION] > 1 {
        return Abort(ArithmeticOverflow);
      }
      if line.Length < LOG_DATA_SIZE {
        // the key copy below would panic and discard this flip
        return Abort(IndexOutOfBounds);
      }
      line[DIRECTION] := 1 - line[DIRECTION];
      assert line[..] == rec[DIRECTION := 1 - rec[DIRECTION]];
      value := amount - value;
    } else {
      value := value - amount;
    }
    if line.Length < LOG_DATA_SIZE {
      // `line_raw[9..41]` panics, which discards the writes before it
      return Abort(IndexOutOfBounds);
    }
    ghost var base := line[..];
    assert MergeStep(rec, mode, amount, k1, k2) == Update(Ok, StampKeys(PutU64(base, AMOUNT, value), k1, k2));
    WriteU64(line, AMOUNT, value);
    ghost var written := line[..];
    CopyInto(line, FIRST_KEY, k1);
    CopyInto(line, SECOND_KEY, k2);
    assert line[..] == StampKeys(written, k1, k2);
    res := Ok;
  }

  /** The three netting rules: same direction accumulates; a larger opposite
      event flips the direction and leaves the surplus; otherwise the stored
      value shrinks and the direction stays. */
  lemma MergeRules(rec: seq<u8>, mode: u8, amount: u64, k1: Key, k2: Key)
    requires |rec| >= LOG_DATA_SIZE
    ensures var u := MergeStep(rec, mode, amount, k1, k2);
      var dir, value := rec[DIRECTION], GetU64(rec, AMOUNT);
      && (dir == mode && value + amount < U64_LIMIT ==>
            u.outcome == Ok && u.rec[DIRECTION] == dir && GetU64(u.rec, AMOUNT) == value + amount)
      && (dir != mode && value < amount && dir <= 1 ==>
            u.outcome == Ok && u.rec[DIRECTION] == 1 - dir && GetU64(u.rec, AMOUNT) == amount - value)
      && (dir != mode && value >= amount ==>
            u.outcome == Ok && u.rec[DIRECTION] == dir && GetU64(u.rec, AMOUNT) == value - amount)
  {
    var dir, value := rec[DIRECTION], GetU64(rec, AMOUNT);
    var base := if dir != mode && value < amount && dir <= 1 then rec[DIRECTION := 1 - dir] else rec;
    var v := if dir == mode then value + amount else if value < amount then amount - value else value - amount;
    if v < U64_LIMIT && (dir == mode || value >= amount || dir <= 1) {
      StampKeysFields(PutU64(base, AMOUNT, v), k1, k2);
      GetPutSame(base, AMOUNT, v);
    }
  }

  /** The merge panics on arithmetic exactly when an accumulation wraps or a
      flip meets a direction byte above 1 (`1 - line_raw[0]` underflows);
      otherwise it panics on the key copy exactly when the buffer is shorter
      than 73 bytes; a panic writes nothing. */
  lemma MergeAborts(rec: seq<u8>, mode: u8, amount: u64, k1: Key, k2: Key)
    requires |rec| >= AMOUNT + 8
    ensures var u := MergeStep(rec, mode, amount, k1, k2);
      var dir, value := rec[DIRECTION], GetU64(rec, AMOUNT);
      var wraps := (dir == mode && value + amount >= U64_LIMIT) || (dir != mode && value < amount && dir > 1);
      && (u.outcome == Abort(ArithmeticOverflow) <==> wraps)
      && (u.outcome == Abort(IndexOutOfBounds) <==> !wraps && |rec| < LOG_DATA_SIZE)
      && (u.outcome == Ok <==> !wraps && |rec| >= LOG_DATA_SIZE)
      && (u.outcome != Ok ==> u.rec == rec)
  {
  }

  /** Signed-value invariant: with direction and mode in {0, 1}, a merge never
      panics on the flip, keeps the direction in {0, 1}, and the new signed
      value is the old one plus the signed event. */
  lemma MergeSignedValue(rec: seq<u8>, mode: u8, amount: u64, k1: Key, k2: Key)
    requires |rec| >= LOG_DATA_SIZE && rec[DIRECTION] <= 1 && mode <= 1
    requires MergeStep(rec, mode, amount, k1, k2).outcome == Ok
    ensures var r := MergeStep(rec, mode, amount, k1, k2).rec;
      r[DIRECTION] <= 1 && RecordSigned(r) == RecordSigned(rec) + Signed(mode, amount)
  {
    MergeRules(rec, mode, amount, k1, k2);
  }

  /** In every successful branch bytes 9..41 hold `k1`, bytes 41..73 hold
      `k2`, and every byte after the record is untouched. */
  lemma MergeWritesKeys(rec: seq<u8>, mode: u8, amount: u64, k1: Key, k2: Key)
    requires |rec| >= LOG_DATA_SIZE
    requires MergeStep(rec, mode, amount, k1, k2).outcome == Ok
    ensures var r := MergeStep(rec, mode, amount, k1, k2).rec;
      r[FIRST_KEY..SECOND_KEY] == k1 && r[SECOND_KEY..LOG_DATA_SIZE] == k2
      && r[LOG_DATA_SIZE..] == rec[LOG_DATA_SIZE..]
  {
    var dir, value := rec[DIRECTION], GetU64(rec, AMOUNT);
    var base := if dir != mode && value < amount then rec[DIRECTION := 1 - dir] else rec;
    var v := if dir == mode then value + amount else if value < amount then amount - value else value - amount;
    StampKeysFields(PutU64(base, AMOUNT, v), k1, k2);
    assert PutU64(base, AMOUNT, v)[LOG_DATA_SIZE..] == rec[LOG_DATA_SIZE..];
  }

  lemma StampKeysFields(rec: seq<u8>, k1: Key, k2: Key)
    requires |rec| >= LOG_DATA_SIZE
    ensures var r := StampKeys(rec, k1, k2);
      && r[..FIRST_KEY] == rec[..FIRST_KEY]
      && r[DIRECTION] == rec[DIRECTION]
      && GetU64(r, AMOUNT) == GetU64(rec, AMOUNT)
      && r[FIRST_KEY..SECOND_KEY] == k1 && r[SECOND_KEY..LOG_DATA_SIZE] == k2
      && r[LOG_DATA_SIZE..] == rec[LOG_DATA_SIZE..]
  {
    var r := StampKeys(rec, k1, k2);
    assert r[AMOUNT..AMOUNT + 8] == rec[AMOUNT..AMOUNT + 8];
  }

  // ---------------------------------------------------------------------
  // Successive events

  datatype Event = Event(mode: u8, amount: u64)

  function SumEvents(events: seq<Event>): int
    requires forall i | 0 <= i < |events| :: events[i].mode <= 1
  {
    if events == [] then 0 else Signed(events[0].mode, events[0].amount) + SumEvents(events[1..])
  }

  /** Merges the events one after another; None once a merge panics. */
  function MergeAll(rec: seq<u8>, events: seq<Event>, k1: Key, k2: Key): Option<seq<u8>>
    requires |rec| >= LOG_DATA_SIZE
    decreases |events|
  {
    if events == [] then Some(rec)
    else
      var u := MergeStep(rec, events[0].mode, events[0].amount, k1, k2);
      if u.outcome != Ok then None else MergeAll(u.rec, events[1..], k1, k2)
  }

  /** Over any sequence of events that all merge, the record's signed value
      grows by the algebraic sum of the events: starting from a zero-filled
      record, it is that sum. */
  lemma {:induction false} MergeAllSums(rec: seq<u8>, events: seq<Event>, k1: Key, k2: Key)
    requires |rec| >= LOG_DATA_SIZE && rec[DIRECTION] <= 1
    requires forall i | 0 <= i < |events| :: events[i].mode <= 1
    requires MergeAll(rec, events, k1, k2).Some?
    decreases |events|
    ensures var r := MergeAll(rec, events, k1, k2).value;
      |r| == |rec| && r[DIRECTION] <= 1 && RecordSigned(r) == RecordSigned(rec) + SumEvents(events)
  {
    if events != [] {
      var u := MergeStep(rec, events[0].mode, events[0].amount, k1, k2);
      MergeSignedValue(rec, events[0].mode, events[0].amount, k1, k2);
      MergeAllSums(u.rec, events[1..], k1, k2);
    }
  }

  // ---------------------------------------------------------------------
  // Opcode 1: record a borrow

  datatype Recorded = Recorded(outcome: Outcome, rec: seq<u8>, cpi: Option<LogCpi>)

  /** Opcode 1: `pdaLen` is the pair's log account's data length, `rec` is
      `a2`'s data, which is the buffer the merge writes. */
  function RecordBorrowStep(data: seq<u8>, pdaLen: nat, rec: seq<u8>, a1: Key, a2: Key): Recorded
  {
    if |data| < 10 then Recorded(Abort(IndexOutOfBounds), rec, None)
    else if CheckOrder(a1, a2) != Ok then Recorded(CheckOrder(a1, a2), rec, None)
    else if pdaLen != 0 && pdaLen != LOG_DATA_SIZE then Recorded(Err(InvalidAccountData), rec, None)
    else if |rec| < AMOUNT + 8 then Recorded(Abort(IndexOutOfBounds), rec, None)
    else
      var u := MergeStep(rec, data[0], GetU64(data, 1), a1, a2);
      if u.outcome != Ok then Recorded(u.outcome, rec, None)
      else Recorded(Ok, u.rec, if pdaLen == 0 then Some(CreateLogAccount(data[9])) else None)
  }

  method RecordBorrow(data: seq<u8>, pdaLen: nat, line: array<u8>, a1: Key, a2: Key)
    returns (res: Outcome, cpi: Option<LogCpi>)
    modifies line
    ensures Recorded(res, line[..], cpi) == RecordBorrowStep(data, pdaLen, old(line[..]), a1, a2)
  {
    if |data| < 10 {
      return Abort(IndexOutOfBounds), None;
    }
    var bump := data[9];
    if LexLess(a1, a2) {
      return Err(InvalidArgument), None;
    }
    cpi := None;
    if pdaLen == 0 {
      cpi := Some(CreateLogAccount(bump));
    } else if pdaLen != LOG_DATA_SIZE {
      return Err(InvalidAccountData), None;
    }
    var mode := data[0];
    var amount := GetU64(data, 1);
    if line.Length < AMOUNT + 8 {
      return Abort(IndexOutOfBounds), None;
    }
    res := Merge(line, mode, amount, a1, a2);
    if res != Ok {
      cpi := None;
    }
  }

  /** A call whose first key is byte-wise below its second is refused with
      `InvalidArgument` before anything is read or written. */
  lemma RecordBorrowOrderGuard(data: seq<u8>, pdaLen: nat, rec: seq<u8>, a1: Key, a2: Key)
    requires |data| >= 10 && LexLess(a1, a2)
    ensures RecordBorrowStep(data, pdaLen, rec, a1, a2) == Recorded(Err(InvalidArgument), rec, None)
  {
  }

  /** An existing log account whose length is neither 0 nor 73 is refused
      with `InvalidAccountData` and nothing is written. */
  lemma RecordBorrowSizeGuard(data: seq<u8>, pdaLen: nat, rec: seq<u8>, a1: Key, a2: Key)
    requires |data| >= 10 && !LexLess(a1, a2)
    ensures pdaLen != 0 && pdaLen != LOG_DATA_SIZE <==>
            RecordBorrowStep(data, pdaLen, rec, a1, a2) == Recorded(Err(InvalidAccountData), rec, None)
  {
    var r := RecordBorrowStep(data, pdaLen, rec, a1, a2);
    if pdaLen == 0 || pdaLen == LOG_DATA_SIZE {
      if |rec| >= AMOUNT + 8 {
        MergeAborts(rec, data[0], GetU64(data, 1), a1, a2);
      }
    }
  }

  /** The event's mode is `data[0]`, which is 1 whenever opcode 1 runs: an
      accepted opcode-1 call always nets its amount in direction 1, so it
      lowers the record's signed value by the amount, and it asks for the log
      account to be created exactly when that account is still empty. */
  lemma RecordBorrowNetsDirectionOne(data: seq<u8>, pdaLen: nat, rec: seq<u8>, a1: Key, a2: Key)
    requires |data| >= 10 && data[0] == OP_RECORD_BORROW && !LexLess(a1, a2)
    requires pdaLen == 0 || pdaLen == LOG_DATA_SIZE
    requires |rec| >= LOG_DATA_SIZE && rec[DIRECTION] <= 1
    ensures var r := RecordBorrowStep(data, pdaLen, rec, a1, a2);
      && r.outcome == MergeStep(rec, 1, GetU64(data, 1), a1, a2).outcome
      && (r.outcome != Ok ==> r.rec == rec && r.cpi == None)
      && (r.outcome == Ok ==>
            && r.rec[DIRECTION] <= 1
            && RecordSigned(r.rec) == RecordSigned(rec) - GetU64(data, 1)
            && (r.cpi.Some? <==> pdaLen == 0))
  {
    if MergeStep(rec, 1, GetU64(data, 1), a1, a2).outcome == Ok {
      MergeSignedValue(rec, 1, GetU64(data, 1), a1, a2);
    }
  }

  // ---------------------------------------------------------------------
  // Opcode 2: book initialisation

  /** Opcode 2: a book of 1280 bytes owned by this program is already set up;
      any other length, or a foreign owner, is refused; an empty account owned
      by this program gets a 1280-byte book created. */
  function InitBook(bookLen: nat, bookOwned: bool): (r: (Outcome, Option<LogCpi>))
    ensures r.0 == Ok || r.0 == Err(InvalidArgument)
    ensures r.0 == Err(InvalidArgument) <==> !bookOwned || (bookLen != 0 && bookLen != BOOK_SIZE)
    ensures r.1.Some? <==> bookOwned && bookLen == 0
    ensures r.1.Some? ==> r.1 == Some(CreateBook(BOOK_SIZE))
  {
    if bookLen == BOOK_SIZE && bookOwned then (Ok, None)
    else if bookLen != 0 || !bookOwned then (Err(InvalidArgument), None)
    else (Ok, Some(CreateBook(BOOK_SIZE)))
  }

  /** Initialising a book twice is harmless: once the first call has created
      the 1280-byte book, the second succeeds and does nothing. */
  lemma InitBookIdempotent()
    ensures InitBook(0, true) == (Ok, Some(CreateBook(BOOK_SIZE)))
    ensures InitBook(InitBook(0, true).1.value.space, true) == (Ok, None)
  {
  }

  // ---------------------------------------------------------------------
  // Dispatch

  /** `process_instruction`: the opcode in `data[0]`. Opcode 0 is the
      ordering check of `create_account` before the provisioning call. */
  method Process(data: seq<u8>, pdaLen: nat, line: array<u8>, a1: Key, a2: Key, bookLen: nat, bookOwned: bool)
    returns (res: Outcome, cpi: Option<LogCpi>)
    modifies line
    ensures |data| == 0 ==> res == Abort(IndexOutOfBounds) && cpi == None
    ensures res != Ok ==> line[..] == old(line[..]) && cpi == None
    ensures |data| > 0 && data[0] == OP_CREATE_LOG ==>
      line[..] == old(line[..])
      && (|data| < 2 ==> res == Abort(IndexOutOfBounds))
      && (|data| >= 2 ==> res == CheckOrder(a1, a2) && (res == Ok ==> cpi == Some(CreateLogAccount(data[1]))))
    ensures |data| > 0 && data[0] == OP_RECORD_BORROW ==>
      Recorded(res, line[..], cpi) == RecordBorrowStep(data, pdaLen, old(line[..]), a1, a2)
    ensures |data| > 0 && data[0] == OP_INIT_BOOK ==>
      (res, cpi) == InitBook(bookLen, bookOwned) && line[..] == old(line[..])
    ensures |data| > 0 && data[0] > OP_INIT_BOOK ==>
      res == Err(InvalidArgument) && line[..] == old(line[..])
  {
    if |data| == 0 {
      return Abort(IndexOutOfBounds), None;
    }
    if data[0] == OP_CREATE_LOG {
      if |data| < 2 {
        return Abort(IndexOutOfBounds), None;
      }
      res := CheckOrder(a1, a2);
      cpi := if res == Ok then Some(CreateLogAccount(data[1])) else None;
    } else if data[0] == OP_RECORD_BORROW {
      res, cpi := RecordBorrow(data, pdaLen, line, a1, a2);
    } else if data[0] == OP_INIT_BOOK {
      res, cpi := InitBook(bookLen, bookOwned).0, InitBook(bookLen, bookOwned).1;
    } else {
      res, cpi := Err(InvalidArgument), None;
    }
  }
}

=== FILE: runtime.dfy ===
/**
 * The result vocabulary of the two on-chain programs: the `ProgramError`
 * values they return, and the Rust panics that abort a transaction.
 * The runtime discards every write of a transaction that returns an error
 * or panics, so an `Err` or `Abort` outcome always comes with untouched
 * account data in this model.
 */
module Runtime {

  datatype Option<T> = None | Some(value: T)

  /** The `ProgramError` variants the programs return. */
  datatype ProgramError =
    | IllegalOwner
    | InvalidAccountData
    | AccountDataTooSmall
    | InvalidArgument
    | InvalidInstructionData

  /** Why a Rust panic happened: a slice or index outside its buffer, a
      checked `u64`/`i64`/`u8` operation that wrapped, or a second
      `borrow_mut` of an account data cell that is already borrowed. */
  datatype Panic = IndexOutOfBounds | ArithmeticOverflow | AlreadyBorrowed

  /** `ProgramResult`, extended with the panic outcome. */
  datatype Outcome = Ok | Err(error: ProgramError) | Abort(panic: Panic)
}

=== FILE: token_client.dfy ===
/**
 * The client's instruction builders for the token program (the payload
 * bytes of `airdrop`, `transfer` and `init_account`) and its balance
 * reader `get_balance`. The account lists, the program-derived addresses
 * and the RPC connection are not modelled: the ledger record the RPC node
 * returns is a parameter.
 */
module TokenClient {
  import opened Runtime
  import opened Codec
  import TokenProgram

  /** The payload of `airdrop`: opcode 2, then the amount big-endian. */
  function AirdropPayload(amount: u64): (r: seq<u8>)
    ensures |r| == 9
  {
    [TokenProgram.OP_AIRDROP] + ToBe(amount)
  }

  /** The payload of `transfer`: opcode 1, then the amount big-endian. */
  function TransferPayload(amount: u64): (r: seq<u8>)
    ensures |r| == 9
  {
    [TokenProgram.OP_TRANSFER] + ToBe(amount)
  }

  /** The payload of `init_account`: opcode 0, then the address bump. */
  function InitAccountPayload(bump: u8): (r: seq<u8>)
    ensures |r| == 2
  {
    [TokenProgram.OP_PROVISION, bump]
  }

  /** `get_balance` on the data of the caller's ledger record: bytes 0..8
      big-endian; a record shorter than 8 bytes makes `dd[0..8]` panic (None). */
  function GetBalance(data: seq<u8>): (r: Option<u64>)
    ensures r.Some? <==> |data| >= 8
  {
    if |data| < 8 then None else Some(FromBe(data[0..8]))
  }

  /** The balance the client reads is the ledger's balance field. */
  lemma GetBalanceReadsBalance(data: seq<u8>)
    requires |data| >= 8
    ensures GetBalance(data) == Some(TokenProgram.Balance(data))
  {
  }

  /** A payload the token program decodes: the opcode byte is first and the
      amount the program reads from bytes 1..9 is the amount encoded. */
  lemma PayloadsDecode(amount: u64)
    ensures AirdropPayload(amount)[0] == TokenProgram.OP_AIRDROP
    ensures TransferPayload(amount)[0] == TokenProgram.OP_TRANSFER
    ensures GetU64(AirdropPayload(amount), 1) == amount
    ensures GetU64(TransferPayload(amount), 1) == amount
  {
    assert AirdropPayload(amount)[1..9] == ToBe(amount);
    assert TransferPayload(amount)[1..9] == ToBe(amount);
    FromBeToBe(amount);
  }

  /** `init_account` asks the program to provision the record with the bump
      it computed. */
  lemma InitAccountProvisions(bump: u8)
    ensures InitAccountPayload(bump)[0] == TokenProgram.OP_PROVISION
    ensures TokenProgram.ProvisionStep(InitAccountPayload(bump)) == (Ok, Some(TokenProgram.CreateLedgerAccount(bump)))
  {
  }

  /** An airdrop of `amount` raises the balance `get_balance` reads by
      exactly `amount`, unless the balance would wrap, which aborts. */
  lemma AirdropThenBalance(amount: u64, rec: seq<u8>)
    requires |rec| >= 8
    ensures var u := TokenProgram.AirdropStep(AirdropPayload(amount), rec);
      && (u.outcome == Ok <==> GetBalance(rec).value + amount < U64_LIMIT)
      && (u.outcome == Ok ==> GetBalance(u.rec) == Some(GetBalance(rec).value + amount))
      && (u.outcome != Ok ==> u.outcome == Abort(ArithmeticOverflow) && u.rec == rec)
  {
    PayloadsDecode(amount);
    TokenProgram.AirdropCredits(AirdropPayload(amount), rec);
    var u := TokenProgram.AirdropStep(AirdropPayload(amount), rec);
    if u.outcome == Ok {
      assert |u.rec| == |rec|;
    }
  }

  /** A transfer of `amount` between two distinct ledger records owned by the
      program is refused exactly when the payer's balance is below `amount`;
      when it succeeds, the balances `get_balance` reads move by `amount`. */
  lemma TransferThenBalances(amount: u64, pay: seq<u8>, dest: seq<u8>)
    requires |pay| >= 8 && |dest| >= 8
    ensures var e := TokenProgram.TransferStep(TransferPayload(amount), true, false, pay, dest);
      && (e.outcome == Err(InvalidAccountData) <==> GetBalance(pay).value < amount)
      && (e.outcome == Ok ==>
            GetBalance(e.pay) == Some(GetBalance(pay).value - amount)
            && GetBalance(e.dest) == Some(GetBalance(dest).value + amount))
  {
    PayloadsDecode(amount);
    TokenProgram.TransferRefusedIff(TransferPayload(amount), pay, dest);
    var e := TokenProgram.TransferStep(TransferPayload(amount), true, false, pay, dest);
    if e.outcome == Ok {
      TokenProgram.TransferMoves(TransferPayload(amount), pay, dest);
    }
  }
}

=== FILE: token_program.dfy ===
/**
 * The ledger program `token_program`: an 80-byte account record whose first
 * 32 bytes hold four big-endian `u64` counters (balance, frozen, borrowed,
 * debited), and the opcode branches that update one or two records in place.
 *
 * Each of opcodes 1-4 is a method over the borrowed data buffers
 * (`array<u8>`), proved equal to a step function over the buffers'
 * contents; the properties of the ledger are lemmas about the step
 * functions. Opcode 0 only issues a request and is the function
 * `ProvisionStep`.
 */
module TokenProgram {
  import opened Runtime
  import opened Codec

  /** Size of a ledger record as allocated by opcode 0. */
  const SPACE_SIZE: nat := 80

  // Field offsets inside a record.
  const BALANCE: nat := 0
  const FROZEN: nat := 8
  const BORROWED: nat := 16
  const DEBITED: nat := 24
  /** Bytes of the record that hold the four counters. */
  const FIELDS_END: nat := 32

  // Opcodes: the first instruction byte.
  const OP_PROVISION: u8 := 0
  const OP_TRANSFER: u8 := 1
  const OP_AIRDROP: u8 := 2
  const OP_FREEZE: u8 := 3
  const OP_BORROW: u8 := 4

  function Balance(rec: seq<u8>): u64
    requires BALANCE + 8 <= |rec|
  {
    GetU64(rec, BALANCE)
  }

  function Frozen(rec: seq<u8>): u64
    requires FROZEN + 8 <= |rec|
  {
    GetU64(rec, FROZEN)
  }

  function Borrowed(rec: seq<u8>): u64
    requires BORROWED + 8 <= |rec|
  {
    GetU64(rec, BORROWED)
  }

  function Debited(rec: seq<u8>): u64
    requires DEBITED + 8 <= |rec|
  {
    GetU64(rec, DEBITED)
  }

  /** Byte `i` of `r` equals byte `i` of `rec` outside the range `lo..hi`. */
  ghost predicate SameOutside(rec: seq<u8>, r: seq<u8>, lo: nat, hi: nat)
  {
    |r| == |rec| && forall i | 0 <= i < |rec| && !(lo <= i < hi) :: r[i] == rec[i]
  }

  /** A side effect the program asks the runtime to perform. */
  datatype Cpi =
    | CreateLedgerAccount(bump: u8)
    | InvokeLog(call: LogCall)

  /** The instruction `write_log` sends to the log program (the compiled-in
      receiver address is a placeholder; see README): the two keys in
      canonical order and the instruction bytes. */
  datatype LogCall = LogCall(first: Key, second: Key, payload: seq<u8>)

  /** The outcome and new contents of a one-record operation. */
  datatype Update = Update(outcome: Outcome, rec: seq<u8>)

  /** The outcome and new contents of a two-record operation. */
  datatype Effect = Effect(outcome: Outcome, pay: seq<u8>, dest: seq<u8>)

  // ---------------------------------------------------------------------
  // The `transfer` helper

  datatype Moved = Moved(pay: u64, dest: u64) | Refused | Overflowed

  /** `transfer(&mut pay_balance, &mut dest_balance, amount)`: refuses when the
      payer has less than `amount`; `dest_balance += amount` panics on overflow. */
  function MoveBalance(payBalance: u64, destBalance: u64, amount: u64): (r: Moved)
    ensures r.Refused? <==> payBalance < amount
    ensures r.Overflowed? <==> amount <= payBalance && destBalance + amount >= U64_LIMIT
    ensures r.Moved? ==> r.pay == payBalance - amount && r.pay + r.dest == payBalance + destBalance
  {
    if payBalance < amount then Refused
    else if destBalance + amount >= U64_LIMIT then Overflowed
    else Moved(payBalance - amount, destBalance + amount)
  }

  // ---------------------------------------------------------------------
  // Opcode 0: provisioning

  /** Opcode 0 up to the provisioning call: the bump is `data[1]`. */
  function ProvisionStep(data: seq<u8>): (Outcome, Option<Cpi>)
  {
    if |data| < 2 then (Abort(IndexOutOfBounds), None)
    else (Ok, Some(CreateLedgerAccount(data[1])))
  }

  // ---------------------------------------------------------------------
  // Opcode 1: transfer

  /** Opcode 1 on the records' contents; `aliased` when payer and destination
      are one account (the second `borrow_mut` then panics). */
  function TransferStep(data: seq<u8>, destOwned: bool, aliased: bool, pay: seq<u8>, dest: seq<u8>): Effect
  {
    if !destOwned then Effect(Err(IllegalOwner), pay, dest)
    else if |data| < 9 || |pay| < 8 then Effect(Abort(IndexOutOfBounds), pay, dest)
    else if aliased then Effect(Abort(AlreadyBorrowed), pay, dest)
    else if |dest| < 8 then Effect(Abort(IndexOutOfBounds), pay, dest)
    else
      match MoveBalance(Balance(pay), Balance(dest), GetU64(data, 1))
      case Refused => Effect(Err(InvalidAccountData), pay, dest)
      case Overflowed => Effect(Abort(ArithmeticOverflow), pay, dest)
      case Moved(p, d) => Effect(Ok, PutU64(pay, BALANCE, p), PutU64(dest, BALANCE, d))
  }

  method Transfer(data: seq<u8>, destOwned: bool, pay: array<u8>, dest: array<u8>) returns (res: Outcome)
    modifies pay, dest
    ensures Effect(res, pay[..], dest[..]) == TransferStep(data, destOwned, pay == dest, old(pay[..]), old(dest[..]))
  {
    if !destOwned {
      return Err(IllegalOwner);
    }
    if |data| < 9 || pay.Length < 8 {
      return Abort(IndexOutOfBounds);
    }
    var amount := GetU64(data, 1);
    var payBalance := ReadU64(pay, BALANCE);
    if pay == dest {
      return Abort(AlreadyBorrowed);
    }
    if dest.Length < 8 {
      return Abort(IndexOutOfBounds);
    }
    var destBalance := ReadU64(dest, BALANCE);
    assert payBalance == Balance(old(pay[..])) && destBalance == Balance(old(dest[..]));
    match MoveBalance(payBalance, destBalance, amount)
    case Refused =>
      return Err(InvalidAccountData);
    case Overflowed =>
      return Abort(ArithmeticOverflow);
    case Moved(p, d) =>
      WriteU64(pay, BALANCE, p);
      WriteU64(dest, BALANCE, d);
      return Ok;
  }

  /** A well-formed transfer is refused exactly when the payer's balance is
      below the amount, and a transfer that does not succeed writes nothing. */
  lemma TransferRefusedIff(data: seq<u8>, pay: seq<u8>, dest: seq<u8>)
    requires |data| >= 9 && |pay| >= 8 && |dest| >= 8
    ensures TransferStep(data, true, false, pay, dest).outcome == Err(InvalidAccountData)
            <==> Balance(pay) < GetU64(data, 1)
  {
  }

  lemma TransferFailureWritesNothing(data: seq<u8>, destOwned: bool, aliased: bool, pay: seq<u8>, dest: seq<u8>)
    requires TransferStep(data, destOwned, aliased, pay, dest).outcome != Ok
    ensures TransferStep(data, destOwned, aliased, pay, dest).pay == pay
    ensures TransferStep(data, destOwned, aliased, pay, dest).dest == dest
  {
  }

  /** A successful transfer moves `data[1..9]` from payer to destination,
      keeps the sum of the two balances, and rewrites only bytes 0..8. */
  lemma TransferMoves(data: seq<u8>, pay: seq<u8>, dest: seq<u8>)
    requires |pay| >= 8 && |dest| >= 8
    requires TransferStep(data, true, false, pay, dest).outcome == Ok
    ensures var e := TransferStep(data, true, false, pay, dest);
      && Balance(e.pay) == Balance(pay) - GetU64(data, 1)
      && Balance(e.dest) == Balance(dest) + GetU64(data, 1)
      && Balance(e.pay) + Balance(e.dest) == Balance(pay) + Balance(dest)
      && SameOutside(pay, e.pay, BALANCE, BALANCE + 8)
      && SameOutside(dest, e.dest, BALANCE, BALANCE + 8)
  {
    var m := MoveBalance(Balance(pay), Balance(dest), GetU64(data, 1));
    GetPutSame(pay, BALANCE, m.pay);
    GetPutSame(dest, BALANCE, m.dest);
    PutKeepsOthers(pay, BALANCE, m.pay);
    PutKeepsOthers(dest, BALANCE, m.dest);
  }

  // ---------------------------------------------------------------------
  // Opcode 2: airdrop

  function AirdropStep(data: seq<u8>, pay: seq<u8>): Update
  {
    if |data| < 9 || |pay| < 8 then Update(Abort(IndexOutOfBounds), pay)
    else if Balance(pay) + GetU64(data, 1) >= U64_LIMIT then Update(Abort(ArithmeticOverflow), pay)
    else Update(Ok, PutU64(pay, BALANCE, Balance(pay) + GetU64(data, 1)))
  }

  method Airdrop(data: seq<u8>, pay: array<u8>) returns (res: Outcome)
    modifies pay
    ensures Update(res, pay[..]) == AirdropStep(data, old(pay[..]))
  {
    ghost var rec := pay[..];
    if |data| < 9 || pay.Length < 8 {
      return Abort(IndexOutOfBounds);
    }
    var amount := GetU64(data, 1);
    var balance := ReadU64(pay, BALANCE);
    assert balance == Balance(rec);
    if balance + amount >= U64_LIMIT {
      return Abort(ArithmeticOverflow);
    }
    balance := balance + amount;
    assert AirdropStep(data, rec) == Update(Ok, PutU64(rec, BALANCE, balance));
    WriteU64(pay, BALANCE, balance);
    res := Ok;
  }

  /** Airdrop succeeds unless the record or payload is short or the balance
      would wrap; it raises the balance by `data[1..9]` and rewrites no other byte. */
  lemma AirdropCredits(data: seq<u8>, pay: seq<u8>)
    requires |data| >= 9 && |pay| >= 8
    ensures var u := AirdropStep(data, pay);
      && (u.outcome == Ok <==> Balance(pay) + GetU64(data, 1) < U64_LIMIT)
      && (u.outcome == Ok ==> Balance(u.rec) == Balance(pay) + GetU64(data, 1))
      && SameOutside(pay, u.rec, BALANCE, BALANCE + 8)
  {
    if Balance(pay) + GetU64(data, 1) < U64_LIMIT {
      GetPutSame(pay, BALANCE, Balance(pay) + GetU64(data, 1));
      PutKeepsOthers(pay, BALANCE, Balance(pay) + GetU64(data, 1));
    }
  }

  // ---------------------------------------------------------------------
  // Opcode 3: freeze

  /** Opcode 3. The amount is `data[0..8]`, which includes the opcode byte. */
  function FreezeStep(data: seq<u8>, pay: seq<u8>): Update
  {
    if |data| < 8 || |pay| < 16 then Update(Abort(IndexOutOfBounds), pay)
    else
      var amount := GetU64(data, 0);
      if Balance(pay) <= amount then Update(Err(AccountDataTooSmall), pay)
      else if Frozen(pay) + amount >= U64_LIMIT then Update(Abort(ArithmeticOverflow), pay)
      else Update(Ok, PutU64(PutU64(pay, BALANCE, Balance(pay) - amount), FROZEN, Frozen(pay) + amount))
  }

  method Freeze(data: seq<u8>, pay: array<u8>) returns (res: Outcome)
    modifies pay
    ensures Update(res, pay[..]) == FreezeStep(data, old(pay[..]))
  {
    ghost var rec := pay[..];
    if |data| < 8 || pay.Length < 16 {
      return Abort(IndexOutOfBounds);
    }
    var amount := GetU64(data, 0);
    var balance := ReadU64(pay, BALANCE);
    var frozenBalance := ReadU64(pay, FROZEN);
    assert balance == Balance(rec) && frozenBalance == Frozen(rec);
    if balance <= amount {
      return Err(AccountDataTooSmall);
    }
    balance := balance - amount;
    if frozenBalance + amount >= U64_LIMIT {
      return Abort(ArithmeticOverflow);
    }
    frozenBalance := frozenBalance + amount;
    assert FreezeStep(data, rec) == Update(Ok, PutU64(PutU64(rec, BALANCE, balance), FROZEN, frozenBalance));
    WriteU64(pay, BALANCE, balance);
    WriteU64(pay, FROZEN, frozenBalance);
    res := Ok;
  }

  /** Freeze fails without writing unless some balance remains; on success it
      moves the amount from balance to frozen, keeps their sum, and leaves
      every byte from 16 on untouched. */
  lemma FreezeMoves(data: seq<u8>, pay: seq<u8>)
    requires |data| >= 8 && |pay| >= 16
    ensures var u := FreezeStep(data, pay);
      && (u.outcome == Err(AccountDataTooSmall) <==> Balance(pay) <= GetU64(data, 0))
      && (u.outcome != Ok ==> u.rec == pay)
      && (u.outcome == Ok ==>
            && Balance(u.rec) == Balance(pay) - GetU64(data, 0)
            && Frozen(u.rec) == Frozen(pay) + GetU64(data, 0)
            && Balance(u.rec) + Frozen(u.rec) == Balance(pay) + Frozen(pay)
            && Balance(u.rec) > 0
            && SameOutside(pay, u.rec, BALANCE, FROZEN + 8))
  {
    var amount := GetU64(data, 0);
    if Balance(pay) > amount && Frozen(pay) + amount < U64_LIMIT {
      var r1 := PutU64(pay, BALANCE, Balance(pay) - amount);
      GetPutSame(pay, BALANCE, Balance(pay) - amount);
      GetPutOther(pay, BALANCE, Balance(pay) - amount, FROZEN);
      GetPutSame(r1, FROZEN, Frozen(pay) + amount);
      GetPutOther(r1, FROZEN, Frozen(pay) + amount, BALANCE);
      PutKeepsOthers(pay, BALANCE, Balance(pay) - amount);
      PutKeepsOthers(r1, FROZEN, Frozen(pay) + amount);
    }
  }

  /** Because the freeze amount is read from `data[0..8]`, an opcode-3
      instruction always asks to freeze at least `3 * 2^56`, so a freeze can
      only succeed on a balance above that. */
  lemma FreezeAmountIncludesOpcode(data: seq<u8>, pay: seq<u8>)
    requires |data| >= 8 && data[0] == OP_FREEZE
    ensures GetU64(data, 0) >= 3 * Pow256(7)
    ensures |pay| >= 16 && FreezeStep(data, pay).outcome == Ok ==> Balance(pay) > 3 * Pow256(7)
  {
    BeToNatLeading(data[0..8]);
  }

  // ---------------------------------------------------------------------
  // Opcode 4: borrow

  /** `scash as i64 - debits as i64` (the payer's available credit); None when
      the `i64` subtraction overflows. */
  function PayAvailable(scash: u64, debits: u64): Option<int>
  {
    var sav := AsI64(scash) - AsI64(debits);
    if I64_MIN <= sav <= I64_MAX then Some(sav) else None
  }

  /** `(dcash + dbrow - debitd) as i64` (the destination's projected credit);
      None when the `u64` addition overflows or the subtraction underflows. */
  function DestAvailable(dcash: u64, dbrow: u64, debitd: u64): Option<int>
  {
    var total := dcash + dbrow;
    if total >= U64_LIMIT || total < debitd then None
    else Some(AsI64(total - debitd))
  }

  /** Lines 136-154 on the counters as read: the two credit computations, the
      three checks, then the three counter updates, each of which panics if it
      wraps. `Ok` means the borrow goes on to write the records. */
  function CreditCheck(amount: u64, scash: u64, sbrow: u64, debits: u64,
                       dcash: u64, dbrow: u64, debitd: u64): (r: Outcome)
    ensures r == Ok ==> amount <= scash && sbrow + amount < U64_LIMIT && debitd + amount < U64_LIMIT
  {
    match PayAvailable(scash, debits)
    case None => Abort(ArithmeticOverflow)
    case Some(sav) =>
      if sav <= 0 then Err(InvalidAccountData)
      else match DestAvailable(dcash, dbrow, debitd)
        case None => Abort(ArithmeticOverflow)
        case Some(dav) =>
          if dav <= 0 then Err(InvalidAccountData)
          else if !(amount < sav && dav > amount) then Err(InvalidAccountData)
          else if scash < amount || sbrow + amount >= U64_LIMIT || debitd + amount >= U64_LIMIT then
            Abort(ArithmeticOverflow)
          else Ok
  }

  /** The record a successful borrow leaves: the payer's balance falls and its
      borrowed counter rises by `amount`; the destination's debited counter
      rises by `amount`; the other written fields are written back as read. */
  function BorrowedPay(pay: seq<u8>, amount: u64): seq<u8>
    requires |pay| >= FIELDS_END && amount <= Balance(pay) && Borrowed(pay) + amount < U64_LIMIT
  {
    PutU64(PutU64(PutU64(pay, BALANCE, Balance(pay) - amount), BORROWED, Borrowed(pay) + amount), DEBITED, Debited(pay))
  }

  function DebitedDest(dest: seq<u8>, amount: u64): seq<u8>
    requires |dest| >= FIELDS_END && Debited(dest) + amount < U64_LIMIT
  {
    PutU64(PutU64(PutU64(dest, BALANCE, Balance(dest)), BORROWED, Borrowed(dest)), DEBITED, Debited(dest) + amount)
  }

  datatype BorrowEffect = BorrowEffect(outcome: Outcome, pay: seq<u8>, dest: seq<u8>, log: Option<LogCall>)

  /** Opcode 4 on the records' contents. `logBump` is the bump the program
      derives for the pair's log account. */
  function BorrowStep(data: seq<u8>, aliased: bool, pay: seq<u8>, dest: seq<u8>,
                      payKey: Key, destKey: Key, logBump: u8): BorrowEffect
  {
    if aliased then BorrowEffect(Abort(AlreadyBorrowed), pay, dest, None)
    else if |data| < 9 || |pay| < FIELDS_END || |dest| < FIELDS_END then
      BorrowEffect(Abort(IndexOutOfBounds), pay, dest, None)
    else
      var amount := GetU64(data, 1);
      var c := CreditCheck(amount, Balance(pay), Borrowed(pay), Debited(pay),
                           Balance(dest), Borrowed(dest), Debited(dest));
      if c != Ok then BorrowEffect(c, pay, dest, None)
      else BorrowEffect(Ok, BorrowedPay(pay, amount), DebitedDest(dest, amount),
                        Some(WriteLog(payKey, destKey, amount, logBump)))
  }

  method Borrow(data: seq<u8>, pay: array<u8>, dest: array<u8>, payKey: Key, destKey: Key, logBump: u8)
    returns (res: Outcome, log: Option<LogCall>)
    modifies pay, dest
    ensures BorrowEffect(res, pay[..], dest[..], log)
            == BorrowStep(data, pay == dest, old(pay[..]), old(dest[..]), payKey, destKey, logBump)
  {
    log := None;
    if pay == dest {
      return Abort(AlreadyBorrowed), None;
    }
    if |data| < 9 || pay.Length < FIELDS_END || dest.Length < FIELDS_END {
      return Abort(IndexOutOfBounds), None;
    }
    var amount := GetU64(data, 1);
    var sbrow := ReadU64(pay, BORROWED);
    var dbrow := ReadU64(dest, BORROWED);
    var debits := ReadU64(pay, DEBITED);
    var debitd := ReadU64(dest, DEBITED);
    var scash := ReadU64(pay, BALANCE);
    var dcash := ReadU64(dest, BALANCE);
    ghost var p, d := pay[..], dest[..];
    BorrowStepByCredit(data, p, d, payKey, destKey, logBump);
    res := CheckCredit(amount, scash, sbrow, debits, dcash, dbrow, debitd);
    if res != Ok {
      return res, None;
    }
    CommitBorrow(pay, dest, amount, scash, sbrow, debits, dcash, dbrow, debitd);
    res, log := Ok, Some(WriteLog(payKey, destKey, amount, logBump));
  }

  /** Lines 136-154: the credit checks and the counter updates' overflow
      panics, on the counters as read. */
  method CheckCredit(amount: u64, scash: u64, sbrow: u64, debits: u64, dcash: u64, dbrow: u64, debitd: u64)
    returns (res: Outcome)
    ensures res == CreditCheck(amount, scash, sbrow, debits, dcash, dbrow, debitd)
  {
    var sav := AsI64(scash) - AsI64(debits);
    if sav < I64_MIN || I64_MAX < sav {
      return Abort(ArithmeticOverflow);
    }
    if sav <= 0 {
      return Err(InvalidAccountData);
    }
    if dcash + dbrow >= U64_LIMIT || dcash + dbrow < debitd {
      return Abort(ArithmeticOverflow);
    }
    var dav := AsI64(dcash + dbrow - debitd);
    if dav <= 0 {
      return Err(InvalidAccountData);
    }
    if !(amount < sav && dav > amount) {
      return Err(InvalidAccountData);
    }
    if scash < amount || sbrow + amount >= U64_LIMIT || debitd + amount >= U64_LIMIT {
      return Abort(ArithmeticOverflow);
    }
    res := Ok;
  }

  /** Past the aliasing and length panics, opcode 4 is decided by the
      credit checks on the six counters as read. */
  lemma BorrowStepByCredit(data: seq<u8>, pay: seq<u8>, dest: seq<u8>, payKey: Key, destKey: Key, logBump: u8)
    requires |data| >= 9 && |pay| >= FIELDS_END && |dest| >= FIELDS_END
    ensures var amount := GetU64(data, 1);
      var c := CreditCheck(amount, Balance(pay), Borrowed(pay), Debited(pay), Balance(dest), Borrowed(dest), Debited(dest));
      BorrowStep(data, false, pay, dest, payKey, destKey, logBump)
        == if c != Ok then BorrowEffect(c, pay, dest, None)
           else BorrowEffect(Ok, BorrowedPay(pay, amount), DebitedDest(dest, amount),
                             Some(WriteLog(payKey, destKey, amount, logBump)))
  {
  }

  /** Lines 152-161: the three counter updates and the six field writes. */
  method CommitBorrow(pay: array<u8>, dest: array<u8>, amount: u64,
                      scash: u64, sbrow: u64, debits: u64, dcash: u64, dbrow: u64, debitd: u64)
    requires pay != dest && pay.Length >= FIELDS_END && dest.Length >= FIELDS_END
    requires scash == Balance(pay[..]) && sbrow == Borrowed(pay[..]) && debits == Debited(pay[..])
    requires dcash == Balance(dest[..]) && dbrow == Borrowed(dest[..]) && debitd == Debited(dest[..])
    requires amount <= scash && sbrow + amount < U64_LIMIT && debitd + amount < U64_LIMIT
    modifies pay, dest
    ensures pay[..] == BorrowedPay(old(pay[..]), amount)
    ensures dest[..] == DebitedDest(old(dest[..]), amount)
  {
    ghost var payAfter := PutU64(PutU64(PutU64(pay[..], BALANCE, scash - amount), BORROWED, sbrow + amount), DEBITED, debits);
    ghost var destAfter := PutU64(PutU64(PutU64(dest[..], BALANCE, dcash), BORROWED, dbrow), DEBITED, debitd + amount);
    assert payAfter == BorrowedPay(pay[..], amount);
    assert destAfter == DebitedDest(dest[..], amount);
    var scash, sbrow, debitd := scash, sbrow, debitd;
    scash := scash - amount;
    sbrow := sbrow + amount;
    debitd := debitd + amount;
    WriteU64(pay, BALANCE, scash);
    ghost var p1 := pay[..];
    WriteU64(dest, BALANCE, dcash);
    ghost var d1 := dest[..];
    assert pay[..] == p1;
    WriteU64(pay, BORROWED, sbrow);
    ghost var p2 := pay[..];
    WriteU64(dest, BORROWED, dbrow);
    ghost var d2 := dest[..];
    assert pay[..] == p2;
    WriteU64(pay, DEBITED, debits);
    ghost var p3 := pay[..];
    WriteU64(dest, DEBITED, debitd);
    assert pay[..] == p3 == payAfter;
    assert dest[..] == destAfter;
  }

  /** A borrow that does not succeed writes neither record and sends no log. */
  lemma BorrowFailureWritesNothing(data: seq<u8>, aliased: bool, pay: seq<u8>, dest: seq<u8>,
                                   payKey: Key, destKey: Key, logBump: u8)
    requires BorrowStep(data, aliased, pay, dest, payKey, destKey, logBump).outcome != Ok
    ensures var e := BorrowStep(data, aliased, pay, dest, payKey, destKey, logBump);
      e.pay == pay && e.dest == dest && e.log == None
  {
  }

  /** The three credit checks reject exactly when the amount is not strictly
      below both the payer's available credit and the destination's projected
      credit; every such rejection is `InvalidAccountData` with no write. */
  lemma BorrowCreditChecks(data: seq<u8>, pay: seq<u8>, dest: seq<u8>, payKey: Key, destKey: Key, logBump: u8)
    requires |data| >= 9 && |pay| >= FIELDS_END && |dest| >= FIELDS_END
    requires var sav := PayAvailable(Balance(pay), Debited(pay));
      sav.Some? && (sav.value > 0 ==> DestAvailable(Balance(dest), Borrowed(dest), Debited(dest)).Some?)
    ensures var e := BorrowStep(data, false, pay, dest, payKey, destKey, logBump);
      var amount := GetU64(data, 1);
      (e.outcome == Err(InvalidAccountData))
        <==> !(&& amount < PayAvailable(Balance(pay), Debited(pay)).value
               && DestAvailable(Balance(dest), Borrowed(dest), Debited(dest)).Some?
               && amount < DestAvailable(Balance(dest), Borrowed(dest), Debited(dest)).value)
  {
  }

  /** For a payer whose balance and debited counter are at most 2^63 - 1 and
      a destination whose balance plus borrowed counter is at most 2^63 - 1
      (so no `as i64` cast changes sign), a borrow succeeds exactly when the amount is below the payer's
      `balance - debited` and the destination's `balance + borrowed - debited`
      and neither counter it raises would wrap. */
  lemma BorrowAcceptedIff(data: seq<u8>, pay: seq<u8>, dest: seq<u8>, payKey: Key, destKey: Key, logBump: u8)
    requires |data| >= 9 && |pay| >= FIELDS_END && |dest| >= FIELDS_END
    requires Balance(pay) <= I64_MAX && Debited(pay) <= I64_MAX
    requires Balance(dest) + Borrowed(dest) <= I64_MAX
    ensures var e := BorrowStep(data, false, pay, dest, payKey, destKey, logBump);
      var amount := GetU64(data, 1);
      (e.outcome == Ok)
        <==> (&& amount < Balance(pay) - Debited(pay)
              && amount < Balance(dest) + Borrowed(dest) - Debited(dest)
              && Borrowed(pay) + amount < U64_LIMIT
              && Debited(dest) + amount < U64_LIMIT)
  {
  }

  /** A successful borrow lowers the payer's balance and raises its borrowed
      counter by the amount, raises the destination's debited counter by the
      amount, leaves every other counter (frozen included) and every byte
      after the counters as it was, and logs the amount for the ordered pair. */
  lemma BorrowEffects(data: seq<u8>, pay: seq<u8>, dest: seq<u8>, payKey: Key, destKey: Key, logBump: u8)
    requires |pay| >= FIELDS_END && |dest| >= FIELDS_END
    requires BorrowStep(data, false, pay, dest, payKey, destKey, logBump).outcome == Ok
    ensures var e := BorrowStep(data, false, pay, dest, payKey, destKey, logBump);
      var amount := GetU64(data, 1);
      && |e.pay| == |pay| && |e.dest| == |dest|
      && Balance(e.pay) == Balance(pay) - amount
      && Borrowed(e.pay) == Borrowed(pay) + amount
      && Debited(e.pay) == Debited(pay)
      && Frozen(e.pay) == Frozen(pay)
      && Balance(e.dest) == Balance(dest)
      && Borrowed(e.dest) == Borrowed(dest)
      && Debited(e.dest) == Debited(dest) + amount
      && Frozen(e.dest) == Frozen(dest)
      && e.pay[FIELDS_END..] == pay[FIELDS_END..]
      && e.dest[FIELDS_END..] == dest[FIELDS_END..]
      && e.log == Some(WriteLog(payKey, destKey, amount, logBump))
  {
    var amount := GetU64(data, 1);
    BorrowedPayFields(pay, amount);
    DebitedDestFields(dest, amount);
  }

  lemma BorrowedPayFields(pay: seq<u8>, amount: u64)
    requires |pay| >= FIELDS_END && amount <= Balance(pay) && Borrowed(pay) + amount < U64_LIMIT
    ensures var r := BorrowedPay(pay, amount);
      && |r| == |pay|
      && Balance(r) == Balance(pay) - amount && Borrowed(r) == Borrowed(pay) + amount
      && Debited(r) == Debited(pay) && Frozen(r) == Frozen(pay)
      && r[FIELDS_END..] == pay[FIELDS_END..]
  {
    var r1 := PutU64(pay, BALANCE, Balance(pay) - amount);
    var r2 := PutU64(r1, BORROWED, Borrowed(pay) + amount);
    GetPutSame(pay, BALANCE, Balance(pay) - amount);
    GetPutOther(pay, BALANCE, Balance(pay) - amount, FROZEN);
    GetPutOther(pay, BALANCE, Balance(pay) - amount, BORROWED);
    GetPutOther(pay, BALANCE, Balance(pay) - amount, DEBITED);
    GetPutSame(r1, BORROWED, Borrowed(pay) + amount);
    GetPutOther(r1, BORROWED, Borrowed(pay) + amount, BALANCE);
    GetPutOther(r1, BORROWED, Borrowed(pay) + amount, FROZEN);
    GetPutOther(r1, BORROWED, Borrowed(pay) + amount, DEBITED);
    PutGetSame(r2, DEBITED);
    assert r2[FIELDS_END..] == pay[FIELDS_END..];
  }

  lemma DebitedDestFields(dest: seq<u8>, amount: u64)
    requires |dest| >= FIELDS_END && Debited(dest) + amount < U64_LIMIT
    ensures var r := DebitedDest(dest, amount);
      && |r| == |dest|
      && Balance(r) == Balance(dest) && Borrowed(r) == Borrowed(dest)
      && Debited(r) == Debited(dest) + amount && Frozen(r) == Frozen(dest)
      && r[FIELDS_END..] == dest[FIELDS_END..]
  {
    PutGetSame(dest, BALANCE);
    PutGetSame(dest, BORROWED);
    GetPutSame(dest, DEBITED, Debited(dest) + amount);
    GetPutOther(dest, DEBITED, Debited(dest) + amount, BALANCE);
    GetPutOther(dest, DEBITED, Debited(dest) + amount, FROZEN);
    GetPutOther(dest, DEBITED, Debited(dest) + amount, BORROWED);
  }

  // ---------------------------------------------------------------------
  // write_log: the instruction sent to the log program

  /** `buf[i] = b` on a fixed-size array; None is the index-out-of-bounds panic. */
  function StoreByte(buf: seq<u8>, i: nat, b: u8): (r: Option<seq<u8>>)
    ensures r.Some? <==> i < |buf|
    ensures r.Some? ==> |r.value| == |buf| && r.value[i] == b
    ensures r.Some? ==> forall j | 0 <= j < |buf| && j != i :: r.value[j] == buf[j]
  {
    if i < |buf| then Some(buf[i := b]) else None
  }

  /** The first key is the byte-wise larger one of source and destination. */
  function CanonicalPair(src: Key, dst: Key): (Key, Key)
  {
    if !LexLess(src, dst) then (src, dst) else (dst, src)
  }

  /** Bytes 0..9 of `write_log`'s `[0u8; 10]` buffer: the direction byte (0 when
      the source is the larger key, else 1) and the big-endian amount. */
  function LogHeader(src: Key, dst: Key, amount: u64): (r: seq<u8>)
    ensures |r| == 10
  {
    [if !LexLess(src, dst) then 0 else 1] + ToBe(amount) + [0]
  }

  /** `write_log` as written: it stores the bump at index 10 of a 10-byte buffer. */
  function WriteLogAsWritten(src: Key, dst: Key, amount: u64, bump: u8): Option<LogCall>
  {
    var (a1, a2) := CanonicalPair(src, dst);
    match StoreByte(LogHeader(src, dst, amount), 10, bump)
    case None => None
    case Some(payload) => Some(LogCall(a1, a2, payload))
  }

  /** The store at index 10 panics for every input, so `write_log` as written
      never produces an instruction. */
  lemma WriteLogAsWrittenPanics(src: Key, dst: Key, amount: u64, bump: u8)
    ensures WriteLogAsWritten(src, dst, amount, bump) == None
  {
  }

  /** `write_log` with the bump stored at index 9, where the log program reads it. */
  function WriteLog(src: Key, dst: Key, amount: u64, bump: u8): LogCall
  {
    var (a1, a2) := CanonicalPair(src, dst);
    LogCall(a1, a2, LogHeader(src, dst, amount)[9 := bump])
  }

  /** The log instruction names the larger key first, carries direction 0
      exactly when the source is that key and direction 1 exactly when the
      destination is, carries the amount big-endian in
      bytes 1..9 and the bump in byte 9. */
  lemma WriteLogLayout(src: Key, dst: Key, amount: u64, bump: u8)
    ensures var c := WriteLog(src, dst, amount, bump);
      && !LexLess(c.first, c.second)
      && {c.first, c.second} == {src, dst}
      && |c.payload| == 10
      && (c.payload[0] == 0 <==> !LexLess(src, dst))
      && (c.payload[0] == 1 <==> LexLess(src, dst))
      && (c.payload[0] == 0 ==> c.first == src)
      && (c.payload[0] == 1 ==> c.first == dst)
      && GetU64(c.payload, 1) == amount
      && c.payload[9] == bump
  {
    var c := WriteLog(src, dst, amount, bump);
    if LexLess(src, dst) {
      LexLessAsymmetric(src, dst);
    }
    assert c.payload[1..9] == ToBe(amount);
    FromBeToBe(amount);
  }

  /** Opcode 4 with `write_log` as written: every borrow that passes its
      checks and writes both records then panics in `write_log`, and the
      runtime discards those writes. */
  function BorrowStepAsWritten(data: seq<u8>, aliased: bool, pay: seq<u8>, dest: seq<u8>,
                               payKey: Key, destKey: Key, logBump: u8): BorrowEffect
  {
    var e := BorrowStep(data, aliased, pay, dest, payKey, destKey, logBump);
    if e.outcome != Ok then e
    else match WriteLogAsWritten(payKey, destKey, GetU64(data, 1), logBump)
      case None => BorrowEffect(Abort(IndexOutOfBounds), pay, dest, None)
      case Some(call) => BorrowEffect(Ok, e.pay, e.dest, Some(call))
  }

  /** As written, opcode 4 never succeeds, never changes either record and
      never sends a log instruction. */
  lemma BorrowAsWrittenNeverSucceeds(data: seq<u8>, aliased: bool, pay: seq<u8>, dest: seq<u8>,
                                     payKey: Key, destKey: Key, logBump: u8)
    ensures var e := BorrowStepAsWritten(data, aliased, pay, dest, payKey, destKey, logBump);
      e.outcome != Ok && e.pay == pay && e.dest == dest && e.log == None
  {
    var e := BorrowStep(data, aliased, pay, dest, payKey, destKey, logBump);
    if e.outcome != Ok {
      BorrowFailureWritesNothing(data, aliased, pay, dest, payKey, destKey, logBump);
    } else {
      WriteLogAsWrittenPanics(payKey, destKey, GetU64(data, 1), logBump);
    }
  }

  // ---------------------------------------------------------------------
  // Dispatch

  /** `token_program`: the payer's owner check, then the opcode in `data[0]`. */
  method Process(data: seq<u8>, payOwned: bool, destOwned: bool, pay: array<u8>, dest: array<u8>,
                 payKey: Key, destKey: Key, logBump: u8)
    returns (res: Outcome, cpi: Option<Cpi>)
    modifies pay, dest
    ensures !payOwned ==> res == Err(IllegalOwner) && cpi == None
    ensures payOwned && |data| == 0 ==> res == Abort(IndexOutOfBounds) && cpi == None
    ensures res != Ok ==> pay[..] == old(pay[..]) && dest[..] == old(dest[..])
    ensures payOwned && |data| > 0 && data[0] == OP_PROVISION ==>
      (res, cpi) == ProvisionStep(data) && pay[..] == old(pay[..]) && dest[..] == old(dest[..])
    ensures payOwned && |data| > 0 && data[0] == OP_TRANSFER ==>
      Effect(res, pay[..], dest[..]) == TransferStep(data, destOwned, pay == dest, old(pay[..]), old(dest[..]))
      && cpi == None
    ensures payOwned && |data| > 0 && data[0] == OP_AIRDROP ==>
      Update(res, pay[..]) == AirdropStep(data, old(pay[..])) && cpi == None
      && (pay != dest ==> dest[..] == old(dest[..]))
    ensures payOwned && |data| > 0 && data[0] == OP_FREEZE ==>
      Update(res, pay[..]) == FreezeStep(data, old(pay[..])) && cpi == None
      && (pay != dest ==> dest[..] == old(dest[..]))
    ensures payOwned && |data| > 0 && data[0] == OP_BORROW ==>
      var e := BorrowStep(data, pay == dest, old(pay[..]), old(dest[..]), payKey, destKey, logBump);
      && res == e.outcome && pay[..] == e.pay && dest[..] == e.dest
      && cpi == (if e.log.Some? then Some(InvokeLog(e.log.value)) else None)
    ensures payOwned && |data| > 0 && data[0] > OP_BORROW ==>
      res == Err(InvalidInstructionData) && cpi == None
  {
    cpi := None;
    if !payOwned {
      return Err(IllegalOwner), None;
    }
    if |data| == 0 {
      return Abort(IndexOutOfBounds), None;
    }
    if data[0] == OP_PROVISION {
      res, cpi := ProvisionStep(data).0, ProvisionStep(data).1;
    } else if data[0] == OP_TRANSFER {
      res := Transfer(data, destOwned, pay, dest);
    } else if data[0] == OP_AIRDROP {
      res := Airdrop(data, pay);
    } else if data[0] == OP_FREEZE {
      res := Freeze(data, pay);
    } else if data[0] == OP_BORROW {
      var log;
      res, log := Borrow(data, pay, dest, payKey, destKey, logBump);
      if log.Some? {
        cpi := Some(InvokeLog(log.value));
      }
    } else {
      res := Err(InvalidInstructionData);
    }
  }
}
